=== FILE: README.md ===
# Whiteboard core: undo log, drawing controller, layer bookkeeping

A Dafny model of the sequential logic under the React wiring of a browser
whiteboard. It covers three parts:

- the bounded undo/redo log of `useHistory`;
- the drawing/input controller of the canvas component: the pointer gesture, the text box, clear, load, undo and redo, and how each of them drives the log;
- the top bar's layer list, keyboard shortcuts and file-input filter.

Everything is immutable datatypes and pure transition functions. The
lemmas relate transitions to each other and to event sequences.

| module | file | models |
|---|---|---|
| `Maybe` | maybe.dfy | `null` results and the missing `files[0]` |
| `History` | history.dfy | `src/hooks/useHistory.js` |
| `Text` | text.dfy | `String.prototype.trim`, as the text tool uses it |
| `Geometry` | geometry.dfy | integer points, the rectangle/circle/line shapes, grid line positions |
| `Settings` | settings.dfy | the tool list, the brush-size range 1–50, the initial configuration |
| `Canvas` | canvas.dfy | `src/components/Canvas.js` |
| `Layers` | layers.dfy | layer bookkeeping in `src/components/TopBar.js` |
| `TopBar` | topbar.dfy | shortcut dispatch and the file filter in `src/components/TopBar.js` |
| `App` | app.dfy | `src/App.js`: initial state and how the widgets reach the canvas |

Modelling choices:

- **Raster.** The committed raster is the list of drawing commands applied since it was last cleared. `toDataURL` is the identity, so a snapshot is a raster, and restoring a snapshot makes it the raster again. Undo and redo only restore when the returned snapshot is truthy (`if (state)`). A data URL is never empty, so every returned snapshot counts as truthy.
- **Configuration.** Tool, brush size, colour and the grid flag are read when each event arrives, so they are a parameter of every controller step.
- **React state.** The hook keeps the snapshot list and the cursor in two state cells updated by nested updaters. Each hook call is modelled as one atomic transition.
- **Eviction.** On overflow the source keeps the cursor's numeric value (`setCurrentIndex(prev => prev)`). Overflow can only happen when the cursor was at the last index, so the unchanged cursor still names the new snapshot. The model follows the code and proves this, rather than recomputing the cursor.
- **Capacity.** The canvas uses the default capacity of 20.
- **The first snapshot.** The blank canvas at start-up is never saved. So after the first commit there is nothing to undo to (`History.FirstSaveCannotBeUndone`).
- **Add-layer handler.** `App.Step` takes which add-layer handler is wired: `LengthId`, the program's own, or `FreshId`, the corrected one from the layer finding. The canvas and log invariant, including the 20-snapshot bound, is proved for both. Distinct layer ids and a non-empty layer list are proved only for `FreshId`, because the program's own handler breaks them (`App.AsWrittenClicksEmptyPanel`).

## Model

| member | source | states |
|---|---|---|
| History.New | src/hooks/useHistory.js:3-5 | the initial log is empty with cursor -1, satisfies the log invariant, and offers neither undo nor redo |
| History.SaveState | src/hooks/useHistory.js:7-22 | preserves the invariant and the capacity bound; the result is exactly the newest `maxHistory` entries of "entries up to the cursor, then the new snapshot" (redo branch dropped, oldest evicted on overflow); the cursor is the last index, so the new snapshot is current and redo is unavailable |
| History.Undo | src/hooks/useHistory.js:24-30 | returns a snapshot iff canUndo; that snapshot is the one the cursor now names, one step back; otherwise returns None and the log is unchanged; the entries are never modified |
| History.Redo | src/hooks/useHistory.js:32-38 | returns a snapshot iff canRedo; that snapshot is the one the cursor now names, one step forward; otherwise None with the log unchanged; entries never modified |
| History.CanUndo | src/hooks/useHistory.js:40 | on a valid log, undo is offered exactly when the cursor is past the first of at least two entries |
| History.CanRedo | src/hooks/useHistory.js:41 | on a valid log, redo is offered exactly when a non-empty log has an entry after the cursor |
| History.UndoAfterSave | src/hooks/useHistory.js:7-30 | with a capacity of at least two, undo straight after a save returns the snapshot that was current before the save, even if the save dropped a redo branch or evicted the oldest entry |
| History.SaveAll | src/hooks/useHistory.js:7-21 | a run of saves keeps the log invariant and capacity; after at least one save the cursor is on the newest entry, nothing can be redone, and with a positive capacity the last saved snapshot is current |
| History.ClearHistory | src/hooks/useHistory.js:43-46 | yields an empty valid log with cursor -1 and the same capacity |
| History.UndoThenRedo | src/hooks/useHistory.js:24-38 | a successful undo followed by redo restores the original log and returns the snapshot that was current before the undo |
| History.RedoThenUndo | src/hooks/useHistory.js:24-38 | a successful redo followed by undo restores the original log and returns the snapshot that was current before the redo |
| History.PredicatesMatchOperations | src/hooks/useHistory.js:24-41 | canUndo holds exactly when undo returns a snapshot, canRedo exactly when redo does |
| History.FirstSaveCannotBeUndone | src/hooks/useHistory.js:7-30 | after the first save into an empty log, the log is that one snapshot and undo returns None without change |
| History.SaveAfterUndoDropsRedoBranch | src/hooks/useHistory.js:7-30 | saving after an undo replaces the entry that was current before the undo; nothing remains to redo |
| History.SaveAllKeepsNewest | src/hooks/useHistory.js:7-21 | from a log whose cursor is at the newest entry, any run of saves leaves exactly the newest `maxHistory` of old entries plus saved snapshots, in order, with the cursor on the last |
| History.SavesFromEmptyKeepNewest | src/hooks/useHistory.js:3-21 | n saves from empty leave exactly the last min(n, maxHistory) snapshots, in order |
| Text.TrimStart | src/components/Canvas.js:118 | the result is the input minus a prefix of trimmable characters and does not start with one |
| Text.TrimEnd | src/components/Canvas.js:118 | the result is the input minus a suffix of trimmable characters and does not end with one |
| Text.Trim | src/components/Canvas.js:118 | `trim()` is never longer than its input and is empty exactly when the input is blank |
| Text.TrimKeepsTheInfix | src/components/Canvas.js:118 | `trim()` keeps a contiguous run of the input, and everything before and after that run is whitespace or line terminators |
| Text.TrimmedEndsAreKept | src/components/Canvas.js:118 | a non-empty `trim()` neither starts nor ends with whitespace or a line terminator |
| Text.TrimEmptyIffBlank | src/components/Canvas.js:118 | `trim()` is empty exactly when every character is ECMAScript whitespace or a line terminator |
| Geometry.RectBetween | src/components/Canvas.js:244-247 | the stroked rectangle is anchored at the press point, and its opposite corner is the release point, whatever the drag direction (signed extents) |
| Geometry.CircleThrough | src/components/Canvas.js:248-252 | the circle is centred at the press point and passes through the release point: squared radius = dx² + dy², zero iff the two points coincide |
| Geometry.Normalize | src/components/Canvas.js:245-247 | a rectangle with signed extents covers the same points as its normalised form with non-negative extents |
| Geometry.RectangleExamples | src/components/Canvas.js:244-247 | (10,10)→(50,30) gives 40×20; (10,10)→(5,5) gives −5×−5, which covers (5,5)–(10,10) |
| Geometry.CircleExample | src/components/Canvas.js:248-249 | (0,0)→(3,4) gives radius 5 |
| Geometry.GridLines | src/components/Canvas.js:66-80 | grid positions are strictly increasing multiples of 20 in [0, limit], and the next multiple would pass the limit |
| Geometry.GridLinesExact | src/components/Canvas.js:67 | a position gets a grid line iff it is a multiple of 20 between 0 and the limit inclusive |
| Geometry.GridPositions | src/components/Canvas.js:67-72 | the `x <= width; x += 20` loop collects exactly the reference grid positions |
| Canvas.Init | src/components/Canvas.js:16-23 | the mounted controller is idle, blank, with an empty log, and satisfies the controller invariant |
| Canvas.FontSize | src/components/Canvas.js:122 | for brush sizes 1–50 the text font size is an even number of pixels from 2 to 100 |
| Canvas.GridOverlay | src/components/Canvas.js:55-80 | every command of the grid overlay is a full-height column or a full-width row (so no shape preview); there is a column exactly at each multiple of 20 from 0 to the width, and a row exactly at each multiple of 20 from 0 to the height |
| Canvas.ShapeFor | src/components/Canvas.js:239-258 | line, rectangle and circle tools draw the segment, the rectangle spanning, and the circle through, the press and release points |
| Canvas.PreviewOverlay | src/components/Canvas.js:197-225 | after a shape-tool move the overlay shows exactly one candidate shape, the current one, on top of the grid if shown |
| Canvas.PreviewLostUnderGrid | src/components/Canvas.js:221-224 | as written, with the grid shown, the overlay after a shape-tool move holds no preview |
| Canvas.StartDrawing | src/components/Canvas.js:143-164 | with the text tool: opens an empty text box at the point and leaves the gesture state alone; otherwise: starts a gesture with start = path = the point; raster, overlay and log untouched |
| Canvas.Draw | src/components/Canvas.js:166-226 | ignored when not drawing; else appends exactly one point; brush/eraser add one segment from the previous point; shape tools leave the raster alone and replace the preview; never saves |
| Canvas.StopDrawing | src/components/Canvas.js:228-273 | ignored when not drawing; else ends the gesture with an empty path and saves exactly one snapshot, the new raster; shape tools add their shape exactly once and clear the preview; brush/eraser leave the raster as stroked |
| Canvas.CancelText | src/components/Canvas.js:136-139 | Escape closes the box and empties it without drawing or saving |
| Canvas.SubmitText | src/components/Canvas.js:117-131 | non-blank text is drawn at the anchor with font size 2×brush and saved once; blank text draws and saves nothing; the box always ends closed and empty |
| Canvas.TextKeyDown | src/components/Canvas.js:133-140 | Enter submits, Escape cancels, any other key changes nothing |
| Canvas.Clear | src/components/Canvas.js:276-281 | the raster becomes blank and that blank picture is saved as the current snapshot |
| Canvas.Load | src/components/Canvas.js:293-305 | the raster becomes the image scaled to the canvas and is saved as the current snapshot |
| Canvas.Restore | src/components/Canvas.js:313-338 | a returned snapshot becomes the raster; None leaves the raster unchanged; nothing is saved |
| Canvas.UndoCanvas | src/components/Canvas.js:313-325 | moves the cursor back and shows the snapshot there when undo is possible; otherwise changes nothing; entries unchanged |
| Canvas.RedoCanvas | src/components/Canvas.js:326-338 | moves the cursor forward and shows the snapshot there when redo is possible; otherwise changes nothing; entries unchanged |
| Canvas.ToggleGrid | src/components/Canvas.js:84-91 | the grid flag changes only the overlay: with the grid shown it becomes exactly the grid, otherwise it is empty; the raster, log, gesture and text box are unchanged |
| Canvas.Step | src/components/Canvas.js:344-394 | every event keeps the log invariant, the capacity, "drawing implies a non-empty path" and "closed text box is empty" |
| Canvas.Run | src/components/Canvas.js:344-394 | any event sequence keeps the controller invariant |
| Canvas.HistoryCoupling | src/components/Canvas.js:117-338 | an event that finishes an operation saves exactly one snapshot, the new raster; undo/redo never save; every other event leaves the log alone |
| Canvas.MovesDuringGesture | src/components/Canvas.js:166-226 | during a gesture, moves extend the path by exactly the points visited, keep the start, save nothing, and leave the raster alone for non-freehand tools |
| Canvas.GestureSavesOnce | src/components/Canvas.js:143-273 | press, any number of moves (including none), release: exactly one save of the final raster, ending idle with an empty path; shape tools add exactly the one shape from press to release point |
| Canvas.TextEntry | src/components/Canvas.js:108-140 | press with the text tool, type, Enter: one save with the text drawn iff it is non-blank; with Escape or blank text, no drawing and no save |
| Canvas.UndoAfterCommitRestores | src/components/Canvas.js:270-325 | undo right after any committed operation on a non-empty log shows the snapshot that was current before it, even when the save evicted the oldest entry |
| Canvas.GridToggleWipesRaster | src/components/Canvas.js:26-52 | as written, toggling the grid blanks the raster while the log keeps the old picture; the corrected toggle keeps it |
| Canvas.PreviewOverlayAsWritten | src/components/Canvas.js:197-224 | the overlay after a shape move, as the program leaves it, holds the preview exactly when the grid is hidden |
| Canvas.GridChangedAsWritten | src/components/Canvas.js:26-52 | toggling the grid as the program does keeps the invariant and the log but leaves a blank raster; the overlay is the one the corrected toggle shows |
| Canvas.CompositeAfter | src/components/Canvas.js:176-242 | an eraser move leaves the main context in destination-out, and only an eraser move ever switches it there; a brush move, a shape release and a canvas-size reset switch it to source-over; every other event (a release with brush or eraser, a press, text, clear, load, undo, redo) leaves it as it was |
| Canvas.RestoreAsWritten | src/components/Canvas.js:313-337 | an undo or redo restore as the program draws it keeps the invariant and the log move; it shows the snapshot exactly when the mode is source-over or the snapshot is blank |
| Canvas.LoadAsWritten | src/components/Canvas.js:292-302 | loading as the program draws it saves what is shown; under destination-out that is a blank picture, under source-over it is the corrected load |
| Canvas.EraseReleaseUndoIsBlank | src/components/Canvas.js:187-196 | an eraser move, the release that saves the stroke, then undo: the mode is still destination-out, undo is available, the as-written undo shows a blank canvas, and the corrected undo shows the snapshot from before the stroke |
| Canvas.EraserLeavesRestoreBlank | src/components/Canvas.js:187-196 | after an eraser move, the as-written undo shows a blank canvas while the log names a non-blank snapshot, and the as-written load saves a blank picture; the corrected undo and load show both |
| Layers.Decimal | src/components/TopBar.js:37 | a layer number renders as a non-empty string of decimal digits |
| Layers.DecimalRoundTrip | src/components/TopBar.js:37 | reading back the rendered number gives the number |
| Layers.LayerNamesInjective | src/components/TopBar.js:37 | two "Layer n" names are equal iff their numbers are |
| Layers.InitialNameIsFirstName | src/App.js:14 | the initial layer is named as a first added layer would be |
| Layers.Without | src/components/TopBar.js:46 | the filter keeps exactly the layers whose id differs, each as many times as it occurs, drops as many as carry the id, starts with the input's first layer whose id differs, and keeps distinct ids distinct |
| Layers.WithoutAppend | src/components/TopBar.js:46 | filtering a concatenation is concatenating the filtered parts, so the kept layers stay in input order |
| Layers.WithoutSingle | src/components/TopBar.js:46 | one layer is kept exactly when its id differs; with `Layers.WithoutAppend` this determines the filter's result |
| Layers.AddLayer | src/components/TopBar.js:34-42 | as written: existing layers unchanged, a visible layer with id = old length and name "Layer (length+1)" appended and selected |
| Layers.RemoveLayer | src/components/TopBar.js:44-50 | no-op for at most one layer; otherwise the result is the in-order filter of the layers with the selected id removed, and the selection is the id of the input's first layer whose id differs, or 0 when none remain |
| Layers.ToggleVisibility | src/components/TopBar.js:52-58 | flips visibility only on layers with the given id; ids, names and order unchanged |
| Layers.ToggleTwiceIsIdentity | src/components/TopBar.js:52-58 | toggling the same id twice restores the list |
| Layers.CountDistinct | src/components/TopBar.js:46 | with distinct ids, at most one layer carries any id |
| Layers.RemoveWithDistinctIds | src/components/TopBar.js:44-50 | if ids are distinct and there is more than one layer, remove drops one layer (none if the selected id is absent); at least one remains and ids stay distinct |
| Layers.NextId | src/components/TopBar.js:36 | the corrected id exceeds every existing id |
| Layers.AddFreshLayer | src/components/TopBar.js:34-42 | corrected add: existing layers unchanged, a visible, selected layer named by position whose id no layer carries; keeps ids distinct |
| Layers.AsWrittenRemoveEmptiesList | src/components/TopBar.js:36-48 | from the initial list: add, select id 0, remove, add, remove leaves no layer, through a duplicated id |
| Layers.FreshIdsKeepALayer | src/components/TopBar.js:34-50 | the same clicks with fresh ids leave one layer |
| TopBar.Shortcut | src/components/TopBar.js:62-94 | with Ctrl or Meta: "z" → undo, shift+"z" → redo, "y" → redo, "s" → save, "o" → open; no action for any other key or without a modifier (each direction of every case) |
| TopBar.ChordsTriggerTheirActions | src/components/TopBar.js:62-94 | each advertised chord triggers its action, with Ctrl or with Meta |
| TopBar.LiteralKeys | src/components/TopBar.js:63-65 | no key acts without a modifier; upper-case "Z" does not match "z" |
| TopBar.HandleFileChange | src/components/TopBar.js:23-32 | the first file is loaded iff present and its type starts with "image/"; the input is reset in every case |
| TopBar.MimeExamples | src/components/TopBar.js:25 | image/png and image/svg+xml pass; text/plain, Image/png, a bare "image" and no file do not |
| App.Init | src/App.js:9-14 | the start state is brush, size 5, black, no grid, one layer "Layer 1" with id 0 selected, blank canvas, empty log, and satisfies the invariant |
| App.OnKey | src/components/TopBar.js:62-94 | a shortcut reaches the canvas's undo or redo action; save, open and non-shortcuts change nothing; the log entries never change |
| App.OnFiles | src/components/TopBar.js:23-32 | an image file is drawn scaled to the canvas and saved once; anything else changes nothing |
| App.Step | src/App.js:16-45 | every application event keeps the canvas invariant with either add-layer handler; with the corrected handler it also keeps distinct layer ids and at least one layer |
| App.Run | src/App.js:16-45 | any event sequence keeps the application invariant, with either add-layer handler |
| App.ReachableStatesBounded | src/hooks/useHistory.js:13-16 | every state reachable from start-up keeps the invariant, so the log never holds more than 20 snapshots, with the program's own add-layer handler as well as the corrected one; with the corrected one at least one layer always remains |
| App.AsWrittenClicksEmptyPanel | src/components/TopBar.js:36-48 | with the program's own add-layer handler, the clicks add, select the first layer, remove, add, remove leave the layer panel empty |
| App.SettingsLeaveCanvasAlone | src/components/TopBar.js:34-58 | layer, tool, size and colour changes never draw or save |
| App.ShortcutsMatchButtons | src/components/TopBar.js:65-82 | Ctrl+Z and Ctrl+Y act exactly like the undo and redo buttons |

## Left out

- Canvas rendering: stroke styles, line caps and joins, fonts and pixels. The raster is the abstract list of draw commands. The composite mode appears only in the as-written restore and load of the eraser finding.
- `getEventPos` (src/components/Canvas.js:94-105): DOM geometry, fractional coordinates, the falsy-`clientX` fallback, and `touchend` with no remaining touches. Event positions are given as integer points.
- Asynchronous image decoding in load, undo and redo (src/components/Canvas.js:298, 319, 332):
  - restores and loads happen synchronously;
  - the out-of-order completion race is not modelled;
  - decode failures, whose callback never fires, are not modelled.
- React semantics:
  - batched `useState` updates and the updater nested inside another updater (src/hooks/useHistory.js:15);
  - stale `useCallback` closures;
  - effect dependency lists;
  - the `window.canvasActions` global, which the `App` module replaces with direct calls.
- A blur fired by the browser when Enter closes the text box. It could submit the stale text a second time. In the model, a blur after the box has closed does nothing.
- Canvas.Draw: the brush/eraser segment starts at the previous path point. The source strokes from the 2D context's current point. The two differ only if the tool is switched to brush or eraser in the middle of a gesture started with another tool.
- Canvas.SubmitText: draws the text in source-over mode. The program's `fillText` (src/components/Canvas.js:124) runs in whatever composite mode the last stroke left, so after an eraser stroke it erases under the glyphs instead of drawing them. This is the same defect as the eraser finding, and it is not modelled separately.
- The circle's `Math.sqrt` and `Math.PI`: the model states the squared radius.
- Export and download (src/components/Canvas.js:284-290) and the save shortcut: no state changes.
- The window resize listener (src/components/Canvas.js:26-52). Only the grid-toggle path through that effect is modelled, as a finding.
- The clear confirmation (`window.confirm`, src/components/ToolPalette.js:15): the clear button reaches the canvas's clear action directly.
- File-picker clicks for the open shortcut and the Load button (src/components/TopBar.js:19-21): no state changes. The chosen file arrives as a file-input event.
- src/hooks/useCanvas.js is not part of this model: it is imported by the canvas component but never used.
- src/components/ColorPalette.js and the rest of src/components/ToolPalette.js are presentational. Only the tool list and the size range are used.
- A `maxHistory` argument that is negative or not an integer is not modelled: the capacity is a natural number.

## Findings

| source | as written | input that shows it | evidently intended | confidence | as-written member | corrected member |
|---|---|---|---|---|---|---|
| src/components/TopBar.js:36-48 | a new layer's id is the list length; remove filters out every layer with the selected id | start with "Layer 1" (id 0); add; select id 0; remove; add (id 1 again); remove: the list is empty despite the `length > 1` guard | ids unique, so remove drops one layer and one always remains | high; not executed | Layers.AddLayer, shown by Layers.AsWrittenRemoveEmptiesList | Layers.AddFreshLayer, with Layers.RemoveWithDistinctIds and Layers.FreshIdsKeepALayer; used by App.Step with the `FreshId` handler, and App.AsWrittenClicksEmptyPanel shows the program's own handler at application level |
| src/components/Canvas.js:221-224 | after the shape preview is drawn, `drawGrid` runs, and it starts by clearing the whole overlay (line 62) | grid shown, rectangle tool, press and move: the overlay holds the grid only | the preview drawn over the grid | high; not executed | Canvas.PreviewOverlayAsWritten, shown by Canvas.PreviewLostUnderGrid | Canvas.PreviewOverlay, used by Canvas.Draw |
| src/components/Canvas.js:26-52 | the resize effect lists `showGrid` as a dependency, so toggling the grid re-runs it. It assigns the canvas width and height, which resets the bitmap under the HTML canvas element rules, and nothing is saved | draw a stroke, then tick the Grid checkbox: the drawing disappears while the log still holds it | toggling the grid changes only the overlay | high; not executed | Canvas.GridChangedAsWritten, shown by Canvas.GridToggleWipesRaster | Canvas.ToggleGrid, used by Canvas.Step |
| src/components/Canvas.js:191 | an eraser move sets the main context's composite mode to destination-out. Only a brush move (line 181) or a shape release (line 242) sets it back. Undo and redo (lines 320-321, 333-334) and load (lines 299-300) clear the canvas and then draw an image in that mode | draw a stroke, erase part of it and release, press undo: the canvas goes blank, though the log's cursor names the stroke | restores and loads draw in source-over mode | high; not executed | Canvas.RestoreAsWritten and Canvas.LoadAsWritten with Canvas.CompositeAfter, shown by Canvas.EraseReleaseUndoIsBlank and Canvas.EraserLeavesRestoreBlank | Canvas.Restore (through Canvas.UndoCanvas and Canvas.RedoCanvas) and Canvas.Load, used by Canvas.Step |

=== FILE: app.dfy ===
/**
 * The whole application: the toolbar configuration, the layer list and the
 * canvas controller, and how toolbar, keyboard and file-input events reach
 * the controller.
 */
module App {
  import opened Maybe
  import opened Settings
  import Canvas
  import History
  import Layers
  import TopBar

  datatype State = State(config: Config, layers: Layers.Selection, canvas: Canvas.Controller)

  /**
   * CanvasInput carries pointer and text-box events as well as the clear,
   * undo and redo buttons; KeyDown is the global shortcut handler;
   * FilesChosen is the hidden file input changing; the rest are the layer
   * controls and the tool, size, colour and grid widgets.
   */
  datatype Event =
    | CanvasInput(e: Canvas.Event)
    | KeyDown(k: TopBar.KeyEvent)
    | FilesChosen(files: seq<Canvas.File>)
    | AddLayerClicked
    | RemoveLayerClicked
    | ToggleVisibilityClicked
    | LayerSelected(id: int)
    | ToolSelected(tool: Tool)
    | BrushSizeChanged(size: BrushSize)
    | ColorChosen(color: Color)
    | GridToggled(show: bool)

  /**
   * Which add-layer handler the layer panel is wired to: the program's own,
   * which numbers the new layer by the list's length, or the corrected one,
   * which picks an id no layer has.
   */
  datatype AddButton = LengthId | FreshId

  /**
   * The canvas invariant holds whichever handler is wired; distinct layer
   * ids and a non-empty layer list hold only with fresh ids.
   */
  predicate Inv(b: AddButton, s: State) {
    && Canvas.Inv(s.canvas)
    && (b == FreshId ==> Layers.DistinctIds(s.layers.layers) && |s.layers.layers| >= 1)
  }

  /** The add-layer handler `b` stands for. */
  function AddLayerWith(b: AddButton, ls: seq<Layers.Layer>): Layers.Selection {
    match b
    case LengthId => Layers.AddLayer(ls)
    case FreshId => Layers.AddFreshLayer(ls)
  }

  /** The application as mounted on a canvas of the given size. */
  function Init(width: nat, height: nat): (s: State)
    ensures Inv(LengthId, s) && Inv(FreshId, s) && s.config == InitialConfig && s.layers == Layers.Initial
    ensures s.canvas.raster == [] && s.canvas.log.entries == []
  {
    State(InitialConfig, Layers.Initial, Canvas.Init(width, height))
  }

  /** The canvas action a shortcut invokes; save and open change no state here. */
  function OnKey(s: State, k: TopBar.KeyEvent): (r: State)
    requires Canvas.Inv(s.canvas)
    ensures Canvas.Inv(r.canvas) && r.config == s.config && r.layers == s.layers
    ensures TopBar.Shortcut(k) == Some(TopBar.Undo) ==> r.canvas == Canvas.UndoCanvas(s.canvas)
    ensures TopBar.Shortcut(k) == Some(TopBar.Redo) ==> r.canvas == Canvas.RedoCanvas(s.canvas)
    ensures TopBar.Shortcut(k) != Some(TopBar.Undo) && TopBar.Shortcut(k) != Some(TopBar.Redo) ==> r == s
    ensures r.canvas.log.entries == s.canvas.log.entries
  {
    var action := TopBar.Shortcut(k);
    if action == Some(TopBar.Undo) then s.(canvas := Canvas.Step(s.config, s.canvas, Canvas.UndoAction))
    else if action == Some(TopBar.Redo) then s.(canvas := Canvas.Step(s.config, s.canvas, Canvas.RedoAction))
    else s
  }

  /** The file input: an image file is loaded onto the canvas and saved; anything else changes nothing. */
  function OnFiles(s: State, files: seq<Canvas.File>): (r: State)
    requires Canvas.Inv(s.canvas)
    ensures Canvas.Inv(r.canvas) && r.config == s.config && r.layers == s.layers
    ensures TopBar.HandleFileChange(files).toLoad.Some? ==>
      && r.canvas.raster == [Canvas.ImageFill(files[0].bytes, s.canvas.width, s.canvas.height)]
      && r.canvas.log == History.SaveState(s.canvas.log, r.canvas.raster)
    ensures TopBar.HandleFileChange(files).toLoad.None? ==> r == s
  {
    match TopBar.HandleFileChange(files).toLoad
    case Some(f) => s.(canvas := Canvas.Step(s.config, s.canvas, Canvas.LoadImage(f)))
    case None => s
  }

  /**
   * One event, with the add-layer button wired to `b`. Only the grid toggle
   * and canvas input reach the raster and the log; the layer controls and
   * the widgets change their own part of the state only.
   */
  function Step(b: AddButton, s: State, e: Event): (r: State)
    requires Inv(b, s)
    ensures Inv(b, r)
  {
    match e
    case CanvasInput(ce) => s.(canvas := Canvas.Step(s.config, s.canvas, ce))
    case KeyDown(k) => OnKey(s, k)
    case FilesChosen(files) => OnFiles(s, files)
    case AddLayerClicked => s.(layers := AddLayerWith(b, s.layers.layers))
    case RemoveLayerClicked =>
      Layers.RemoveWithDistinctIds(s.layers);
      s.(layers := Layers.RemoveLayer(s.layers))
    case ToggleVisibilityClicked =>
      s.(layers := s.layers.(layers := Layers.ToggleVisibility(s.layers.layers, s.layers.current)))
    case LayerSelected(id) => s.(layers := s.layers.(current := id))
    case ToolSelected(t) => s.(config := s.config.(tool := t))
    case BrushSizeChanged(n) => s.(config := s.config.(brushSize := n))
    case ColorChosen(c) => s.(config := s.config.(color := c))
    case GridToggled(show) =>
      var cfg := s.config.(showGrid := show);
      s.(config := cfg, canvas := Canvas.Step(cfg, s.canvas, Canvas.GridChanged))
  }

  /**
   * Events applied in order. Every reachable state keeps the log invariant
   * and the gesture/text invariants; with fresh layer ids it also keeps
   * distinct ids and at least one layer.
   */
  function Run(b: AddButton, s: State, es: seq<Event>): (r: State)
    requires Inv(b, s)
    ensures Inv(b, r)
    decreases |es|
  {
    if es == [] then s else Run(b, Step(b, s, es[0]), es[1..])
  }

  /**
   * Every state reachable from start-up satisfies the invariant, with the
   * program's own add button as well as the corrected one, so the log never
   * exceeds 20 snapshots either way.
   */
  lemma ReachableStatesBounded(b: AddButton, width: nat, height: nat, es: seq<Event>)
    ensures Inv(b, Run(b, Init(width, height), es))
    ensures |Run(b, Init(width, height), es).canvas.log.entries| <= 20
    ensures b == FreshId ==> |Run(b, Init(width, height), es).layers.layers| >= 1
  {
  }

  /**
   * With the program's own add button, five clicks empty the layer panel:
   * add (a second layer with id 1), select the first, remove it, add (id 1
   * again), remove (both id-1 layers go).
   */
  lemma AsWrittenClicksEmptyPanel(width: nat, height: nat)
    ensures Run(LengthId, Init(width, height),
      [AddLayerClicked, LayerSelected(0), RemoveLayerClicked, AddLayerClicked, RemoveLayerClicked]).layers.layers == []
  {
    var s0 := Init(width, height);
    RunFive(LengthId, s0, AddLayerClicked, LayerSelected(0), RemoveLayerClicked, AddLayerClicked, RemoveLayerClicked);
    var s1 := Step(LengthId, s0, AddLayerClicked);
    var s2 := Step(LengthId, s1, LayerSelected(0));
    var s3 := Step(LengthId, s2, RemoveLayerClicked);
    var s4 := Step(LengthId, s3, AddLayerClicked);
    var s5 := Step(LengthId, s4, RemoveLayerClicked);
    LayerButtons(s0);
    LayerButtons(s1);
    LayerButtons(s2);
    LayerButtons(s3);
    LayerButtons(s4);
    Layers.AsWrittenRemoveEmptiesList();
  }

  /** Five events run one after the other. */
  lemma RunFive(b: AddButton, s: State, e1: Event, e2: Event, e3: Event, e4: Event, e5: Event)
    requires Inv(b, s)
    ensures Run(b, s, [e1, e2, e3, e4, e5]) == Step(b, Step(b, Step(b, Step(b, Step(b, s, e1), e2), e3), e4), e5)
  {
    var es := [e1, e2, e3, e4, e5];
    var t1 := Step(b, s, e1);
    var t2 := Step(b, t1, e2);
    var t3 := Step(b, t2, e3);
    var t4 := Step(b, t3, e4);
    var t5 := Step(b, t4, e5);
    RunCons(b, s, es);
    assert es[1..] == [e2, e3, e4, e5];
    RunCons(b, t1, [e2, e3, e4, e5]);
    assert [e2, e3, e4, e5][1..] == [e3, e4, e5];
    RunCons(b, t2, [e3, e4, e5]);
    assert [e3, e4, e5][1..] == [e4, e5];
    RunCons(b, t3, [e4, e5]);
    assert [e4, e5][1..] == [e5];
    RunCons(b, t4, [e5]);
    assert [e5][1..] == [];
  }

  /** Running a non-empty list is one step, then the rest. */
  lemma RunCons(b: AddButton, s: State, es: seq<Event>)
    requires Inv(b, s) && es != []
    ensures Run(b, s, es) == Run(b, Step(b, s, es[0]), es[1..])
  {
  }

  /** With the program's own add button, the add, select and remove buttons act on the layer selection alone, as the layer operations say. */
  lemma LayerButtons(s: State)
    requires Inv(LengthId, s)
    ensures Step(LengthId, s, AddLayerClicked).layers == Layers.AddLayer(s.layers.layers)
    ensures Step(LengthId, s, LayerSelected(0)).layers == s.layers.(current := 0)
    ensures Step(LengthId, s, RemoveLayerClicked).layers == Layers.RemoveLayer(s.layers)
  {
  }

  /** Layer controls, tool, size and colour changes never draw or save anything. */
  lemma SettingsLeaveCanvasAlone(b: AddButton, s: State, e: Event)
    requires Inv(b, s)
    requires e.AddLayerClicked? || e.RemoveLayerClicked? || e.ToggleVisibilityClicked? || e.LayerSelected?
          || e.ToolSelected? || e.BrushSizeChanged? || e.ColorChosen?
    ensures Step(b, s, e).canvas == s.canvas
  {
  }

  /** Ctrl+Z and Ctrl+Y are exactly the toolbar's undo and redo buttons. */
  lemma ShortcutsMatchButtons(b: AddButton, s: State)
    requires Inv(b, s)
    ensures Step(b, s, KeyDown(TopBar.ChordFor(TopBar.Undo))) == Step(b, s, CanvasInput(Canvas.UndoAction))
    ensures Step(b, s, KeyDown(TopBar.ChordFor(TopBar.Redo))) == Step(b, s, CanvasInput(Canvas.RedoAction))
  {
    TopBar.ChordsTriggerTheirActions(TopBar.Undo);
    TopBar.ChordsTriggerTheirActions(TopBar.Redo);
  }
}

=== FILE: canvas.dfy ===
/**
 * The drawing/input controller of the canvas component: the pointer and
 * text-entry state machine, the committed raster and the overlay, and how
 * each event drives the undo/redo log.
 *
 * The raster is abstract: the list of drawing commands applied since it was
 * last cleared. Encoding it (toDataURL) is the identity, so a snapshot is a
 * raster and restoring a snapshot makes it the raster again.
 */
module Canvas {
  import opened Maybe
  import opened Settings
  import opened Geometry
  import History
  import Text

  /** A file handed to loadImage. */
  datatype File = File(name: string, mimeType: string, bytes: seq<int>)

  /** One drawing operation applied to the committed raster. */
  datatype DrawCmd =
    | BrushStroke(from: Point, to: Point, lineWidth: int, color: Color)
    | EraserStroke(from: Point, to: Point, lineWidth: int)
    | ShapeStroke(shape: Shape, lineWidth: int, color: Color)
    | TextFill(text: string, at: Point, fontSize: int, color: Color)
    | ImageFill(bytes: seq<int>, width: nat, height: nat)

  type Raster = seq<DrawCmd>

  /** One thing drawn on the overlay canvas, which is never snapshotted. */
  datatype OverlayCmd =
    | GridColumn(x: int, height: nat)
    | GridRow(y: int, width: nat)
    | Preview(shape: Shape, lineWidth: int, color: Color)

  /**
   * The component's state: the gesture (`isDrawing`, `startPos`,
   * `currentPath`), the text entry (`isTyping`, `textInput`,
   * `textPosition`), both canvases, the undo log and the canvas size.
   */
  datatype Controller = Controller(
    isDrawing: bool,
    startPos: Point,
    currentPath: seq<Point>,
    isTyping: bool,
    textInput: string,
    textPosition: Point,
    raster: Raster,
    overlay: seq<OverlayCmd>,
    log: History.Log<Raster>,
    width: nat,
    height: nat)

  /**
   * The events the component reacts to. PointerUp stands for mouse-up,
   * mouse-leave and touch-end alike (one handler serves all three), and
   * PointerDown/PointerMove for their mouse and touch forms. TextChanged,
   * TextKey and TextBlur come from the text box, which exists only while
   * typing. ClearCanvas, LoadImage, UndoAction and RedoAction are the
   * actions exposed to the toolbars; GridChanged is the grid flag changing.
   */
  datatype Event =
    | PointerDown(pos: Point)
    | PointerMove(pos: Point)
    | PointerUp(pos: Point)
    | TextChanged(value: string)
    | TextKey(key: string)
    | TextBlur
    | ClearCanvas
    | LoadImage(file: File)
    | UndoAction
    | RedoAction
    | GridChanged

  /** What every reachable state satisfies. */
  predicate Inv(c: Controller) {
    && History.Valid(c.log)
    && c.log.maxHistory == History.DefaultCapacity
    && (c.isDrawing ==> |c.currentPath| >= 1)
    && (!c.isTyping ==> c.textInput == "")
  }

  /** The state after mounting on a canvas of the given size: blank, idle, nothing saved. */
  function Init(width: nat, height: nat): (c: Controller)
    ensures Inv(c) && c.raster == [] && c.log.entries == []
    ensures !c.isDrawing && !c.isTyping
  {
    Controller(false, Point(0, 0), [], false, "", Point(0, 0), [], [],
               History.New(History.DefaultCapacity), width, height)
  }

  /** The text tool's font size in pixels: twice the brush size. */
  function FontSize(size: BrushSize): (px: int)
    ensures 2 <= px <= 100 && px % 2 == 0
  {
    2 * size
  }

  /** The grid as drawGrid leaves the overlay: one column per grid x position, then one row per grid y position. */
  function GridOverlay(width: nat, height: nat): (r: seq<OverlayCmd>)
    ensures forall i :: 0 <= i < |r| ==>
              (r[i].GridColumn? && r[i].height == height) || (r[i].GridRow? && r[i].width == width)
    ensures forall x :: GridColumn(x, height) in r <==> 0 <= x <= width && x % GridSize == 0
    ensures forall y :: GridRow(y, width) in r <==> 0 <= y <= height && y % GridSize == 0
  {
    var xs := GridLines(width);
    var ys := GridLines(height);
    var cols := seq(|xs|, i requires 0 <= i < |xs| => GridColumn(xs[i], height));
    var rows := seq(|ys|, i requires 0 <= i < |ys| => GridRow(ys[i], width));
    assert forall x :: GridColumn(x, height) in cols + rows <==> x in xs by {
      forall x ensures GridColumn(x, height) in cols + rows <==> x in xs {
        if x in xs {
          var i :| 0 <= i < |xs| && xs[i] == x;
          assert cols[i] == GridColumn(x, height);
        }
      }
    }
    assert forall y :: GridRow(y, width) in cols + rows <==> y in ys by {
      forall y ensures GridRow(y, width) in cols + rows <==> y in ys {
        if y in ys {
          var i :| 0 <= i < |ys| && ys[i] == y;
          assert rows[i] == GridRow(y, width);
        }
      }
    }
    forall v ensures v in xs <==> 0 <= v <= width && v % GridSize == 0 {
      GridLinesExact(width, v);
    }
    forall v ensures v in ys <==> 0 <= v <= height && v % GridSize == 0 {
      GridLinesExact(height, v);
    }
    cols + rows
  }

  /** The overlay with no shape in progress: the grid when it is shown, otherwise empty. */
  function BaseOverlay(cfg: Config, c: Controller): seq<OverlayCmd> {
    if cfg.showGrid then GridOverlay(c.width, c.height) else []
  }

  /** The shape a shape tool draws for a drag from `start` to `pos`. */
  function ShapeFor(tool: Tool, start: Point, pos: Point): (s: Shape)
    requires IsShapeTool(tool)
    ensures tool == Line ==> s == Segment(start, pos)
    ensures tool == Rectangle ==> s.Rect? && s.corner == start && OppositeCorner(s) == pos
    ensures tool == Circle ==> s.Arc? && s.center == start && SquaredDistance(start, pos) == s.radiusSquared
  {
    match tool
    case Line => Segment(start, pos)
    case Rectangle => RectBetween(start, pos)
    case Circle => CircleThrough(start, pos)
  }

  /**
   * The overlay after a shape-tool move as the source leaves it: the preview
   * is drawn, then drawGrid clears the whole overlay before drawing the grid,
   * so with the grid shown the preview is wiped.
   */
  function PreviewOverlayAsWritten(cfg: Config, c: Controller, shape: Shape): (r: seq<OverlayCmd>)
    ensures (exists i :: 0 <= i < |r| && r[i] == Preview(shape, cfg.brushSize, cfg.color)) <==> !cfg.showGrid
  {
    if cfg.showGrid then GridOverlay(c.width, c.height)
    else
      var r := [Preview(shape, cfg.brushSize, cfg.color)];
      assert r[0] == Preview(shape, cfg.brushSize, cfg.color);
      r
  }

  /** With the grid shown, the as-written overlay holds no preview at all during a shape drag. */
  lemma PreviewLostUnderGrid(cfg: Config, c: Controller, shape: Shape)
    requires cfg.showGrid
    ensures forall i :: 0 <= i < |PreviewOverlayAsWritten(cfg, c, shape)| ==> !PreviewOverlayAsWritten(cfg, c, shape)[i].Preview?
  {
  }

  /** The overlay after a shape-tool move: the grid if shown, then the single candidate shape on top. */
  function PreviewOverlay(cfg: Config, c: Controller, shape: Shape): (r: seq<OverlayCmd>)
    ensures |r| > 0 && r[|r| - 1] == Preview(shape, cfg.brushSize, cfg.color)
    ensures forall i :: 0 <= i < |r| - 1 ==> !r[i].Preview?
    ensures r[..|r| - 1] == BaseOverlay(cfg, c)
  {
    BaseOverlay(cfg, c) + [Preview(shape, cfg.brushSize, cfg.color)]
  }

  /** Pointer-down: with the text tool it opens an empty text box at `pos`; with any other tool it starts a gesture at `pos`. */
  function StartDrawing(cfg: Config, c: Controller, pos: Point): (r: Controller)
    requires Inv(c)
    ensures Inv(r)
    ensures r.raster == c.raster && r.overlay == c.overlay && r.log == c.log
    ensures cfg.tool == Text ==> r == c.(isTyping := true, textInput := "", textPosition := pos)
    ensures cfg.tool != Text ==> r == c.(isDrawing := true, startPos := pos, currentPath := [pos])
  {
    if cfg.tool == Text then
      c.(textPosition := pos, isTyping := true, textInput := "")
    else
      c.(isDrawing := true, startPos := pos, currentPath := [pos])
  }

  /**
   * Pointer-move: ignored unless a gesture is in progress; otherwise the
   * point is appended to the path, brush and eraser stroke one segment from
   * the previous point onto the raster, and shape tools only redraw the
   * overlay.
   */
  function Draw(cfg: Config, c: Controller, pos: Point): (r: Controller)
    requires Inv(c)
    ensures Inv(r)
    ensures !c.isDrawing ==> r == c
    ensures c.isDrawing ==> r.isDrawing && r.currentPath == c.currentPath + [pos]
    ensures r.log == c.log && r.startPos == c.startPos
    ensures r.isTyping == c.isTyping && r.textInput == c.textInput && r.textPosition == c.textPosition
    ensures c.isDrawing && cfg.tool == Brush ==>
      r.raster == c.raster + [BrushStroke(c.currentPath[|c.currentPath| - 1], pos, cfg.brushSize, cfg.color)]
    ensures c.isDrawing && cfg.tool == Eraser ==>
      r.raster == c.raster + [EraserStroke(c.currentPath[|c.currentPath| - 1], pos, cfg.brushSize)]
    ensures !IsFreehand(cfg.tool) ==> r.raster == c.raster
    ensures c.isDrawing && IsShapeTool(cfg.tool) ==>
      r.overlay == PreviewOverlay(cfg, c, ShapeFor(cfg.tool, c.startPos, pos))
    ensures !IsShapeTool(cfg.tool) ==> r.overlay == c.overlay
  {
    if !c.isDrawing then c
    else
      var prev := c.currentPath[|c.currentPath| - 1];
      var d := MoveDrawing(cfg, c, prev, pos);
      c.(currentPath := c.currentPath + [pos], raster := d.0, overlay := d.1)
  }

  /** What a move during a gesture draws: the new raster and overlay, by tool. */
  function MoveDrawing(cfg: Config, c: Controller, prev: Point, pos: Point): (d: (Raster, seq<OverlayCmd>))
    ensures cfg.tool == Brush ==> d.0 == c.raster + [BrushStroke(prev, pos, cfg.brushSize, cfg.color)]
    ensures cfg.tool == Eraser ==> d.0 == c.raster + [EraserStroke(prev, pos, cfg.brushSize)]
    ensures !IsFreehand(cfg.tool) ==> d.0 == c.raster
    ensures IsShapeTool(cfg.tool) ==> d.1 == PreviewOverlay(cfg, c, ShapeFor(cfg.tool, c.startPos, pos))
    ensures !IsShapeTool(cfg.tool) ==> d.1 == c.overlay
  {
    match cfg.tool
    case Brush => (c.raster + [BrushStroke(prev, pos, cfg.brushSize, cfg.color)], c.overlay)
    case Eraser => (c.raster + [EraserStroke(prev, pos, cfg.brushSize)], c.overlay)
    case Text => (c.raster, c.overlay)
    case _ => (c.raster, PreviewOverlay(cfg, c, ShapeFor(cfg.tool, c.startPos, pos)))
  }

  /**
   * Pointer-up (and mouse-leave, touch-end): ignored unless a gesture is in
   * progress; otherwise a shape tool strokes its shape onto the raster once
   * and clears the preview, and in every case the raster is saved and the
   * gesture ends.
   */
  function StopDrawing(cfg: Config, c: Controller, pos: Point): (r: Controller)
    requires Inv(c)
    ensures Inv(r)
    ensures !c.isDrawing ==> r == c
    ensures c.isDrawing ==> !r.isDrawing && r.currentPath == []
    ensures c.isDrawing ==> r.log == History.SaveState(c.log, r.raster) && History.Current(r.log) == r.raster
    ensures c.isDrawing && IsShapeTool(cfg.tool) ==>
      && r.raster == c.raster + [ShapeStroke(ShapeFor(cfg.tool, c.startPos, pos), cfg.brushSize, cfg.color)]
      && r.overlay == BaseOverlay(cfg, c)
    ensures !IsShapeTool(cfg.tool) ==> r.raster == c.raster && r.overlay == c.overlay
    ensures r.isTyping == c.isTyping && r.textInput == c.textInput && r.textPosition == c.textPosition
  {
    if !c.isDrawing then c
    else
      var raster :=
        if IsShapeTool(cfg.tool) then c.raster + [ShapeStroke(ShapeFor(cfg.tool, c.startPos, pos), cfg.brushSize, cfg.color)]
        else c.raster;
      var overlay := if IsShapeTool(cfg.tool) then BaseOverlay(cfg, c) else c.overlay;
      c.(isDrawing := false, raster := raster, overlay := overlay,
         log := History.SaveState(c.log, raster), currentPath := [])
  }

  /** Closes the text box, discarding what was typed. */
  function CancelText(c: Controller): (r: Controller)
    requires Inv(c)
    ensures Inv(r) && !r.isTyping && r.textInput == ""
    ensures r.raster == c.raster && r.log == c.log && r.isDrawing == c.isDrawing
  {
    c.(isTyping := false, textInput := "")
  }

  /**
   * Enter or blur in the text box: text with a non-blank character is drawn
   * at the anchor with twice the brush size as font size and saved; blank
   * text changes nothing. The box closes either way.
   */
  function SubmitText(cfg: Config, c: Controller): (r: Controller)
    requires Inv(c)
    ensures Inv(r) && !r.isTyping && r.textInput == ""
    ensures Text.Blank(c.textInput) ==> r.raster == c.raster && r.log == c.log
    ensures !Text.Blank(c.textInput) ==>
      && r.raster == c.raster + [TextFill(c.textInput, c.textPosition, 2 * cfg.brushSize, cfg.color)]
      && r.log == History.SaveState(c.log, r.raster)
      && History.Current(r.log) == r.raster
    ensures r.isDrawing == c.isDrawing && r.overlay == c.overlay
  {
    Text.TrimEmptyIffBlank(c.textInput);
    if Text.Trim(c.textInput) != "" then
      var raster := c.raster + [TextFill(c.textInput, c.textPosition, FontSize(cfg.brushSize), cfg.color)];
      c.(raster := raster, log := History.SaveState(c.log, raster), isTyping := false, textInput := "")
    else
      c.(isTyping := false, textInput := "")
  }

  /** A key in the text box: Enter submits, Escape cancels, anything else is typing handled by TextChanged. */
  function TextKeyDown(cfg: Config, c: Controller, key: string): (r: Controller)
    requires Inv(c)
    ensures Inv(r)
    ensures key == "Enter" ==> r == SubmitText(cfg, c)
    ensures key == "Escape" ==> r == CancelText(c)
    ensures key != "Enter" && key != "Escape" ==> r == c
  {
    if key == "Enter" then SubmitText(cfg, c)
    else if key == "Escape" then CancelText(c)
    else c
  }

  /** Clears the raster and saves the blank picture. */
  function Clear(c: Controller): (r: Controller)
    requires Inv(c)
    ensures Inv(r) && r.raster == []
    ensures r.log == History.SaveState(c.log, []) && History.Current(r.log) == []
  {
    c.(raster := [], log := History.SaveState(c.log, []))
  }

  /** Replaces the raster with the image scaled to the canvas and saves it. */
  function Load(c: Controller, f: File): (r: Controller)
    requires Inv(c)
    ensures Inv(r) && r.raster == [ImageFill(f.bytes, c.width, c.height)]
    ensures r.log == History.SaveState(c.log, r.raster) && History.Current(r.log) == r.raster
  {
    var raster := [ImageFill(f.bytes, c.width, c.height)];
    c.(raster := raster, log := History.SaveState(c.log, raster))
  }

  /** Restores the snapshot a history move returned; with none, the raster stays as it is. */
  function Restore(c: Controller, got: History.Retrieved<Raster>): (r: Controller)
    requires Inv(c) && History.Valid(got.log) && got.log.maxHistory == c.log.maxHistory
    requires got.snapshot.Some? ==> got.log.entries != [] && got.snapshot.value == History.Current(got.log)
    ensures Inv(r) && r.log == got.log
    ensures got.snapshot.Some? ==> r.raster == History.Current(r.log)
    ensures got.snapshot.None? ==> r.raster == c.raster
  {
    match got.snapshot
    case Some(s) => c.(raster := s, log := got.log)
    case None => c.(log := got.log)
  }

  /** The undo action: move back in the log and show the snapshot there, if any; nothing is saved. */
  function UndoCanvas(c: Controller): (r: Controller)
    requires Inv(c)
    ensures Inv(r) && r.log.entries == c.log.entries
    ensures History.CanUndo(c.log) ==> r.log.cursor == c.log.cursor - 1 && r.raster == History.Current(r.log)
    ensures !History.CanUndo(c.log) ==> r == c
  {
    Restore(c, History.Undo(c.log))
  }

  /** The redo action: move forward in the log and show the snapshot there, if any; nothing is saved. */
  function RedoCanvas(c: Controller): (r: Controller)
    requires Inv(c)
    ensures Inv(r) && r.log.entries == c.log.entries
    ensures History.CanRedo(c.log) ==> r.log.cursor == c.log.cursor + 1 && r.raster == History.Current(r.log)
    ensures !History.CanRedo(c.log) ==> r == c
  {
    Restore(c, History.Redo(c.log))
  }

  /**
   * The grid flag changing as the source handles it: the resize effect runs
   * again and assigns the canvas width and height, which resets the
   * committed bitmap to blank without saving anything.
   */
  function GridChangedAsWritten(cfg: Config, c: Controller): (r: Controller)
    requires Inv(c)
    ensures Inv(r) && r.raster == [] && r.log == c.log
    ensures r.overlay == ToggleGrid(cfg, c).overlay
  {
    c.(raster := [], overlay := BaseOverlay(cfg, c))
  }

  /** The grid flag changing: the overlay shows the grid or nothing; the raster and the log are left alone. */
  function ToggleGrid(cfg: Config, c: Controller): (r: Controller)
    requires Inv(c)
    ensures Inv(r) && r == c.(overlay := r.overlay)
    ensures cfg.showGrid ==> r.overlay == GridOverlay(c.width, c.height)
    ensures !cfg.showGrid ==> r.overlay == []
  {
    c.(overlay := BaseOverlay(cfg, c))
  }

  /** One event, with the configuration current when it arrives. */
  function Step(cfg: Config, c: Controller, e: Event): (r: Controller)
    requires Inv(c)
    ensures Inv(r) && r.width == c.width && r.height == c.height
  {
    if e.PointerDown? || e.PointerMove? || e.PointerUp? then PointerStep(cfg, c, e)
    else if e.TextChanged? || e.TextKey? || e.TextBlur? then TextBoxStep(cfg, c, e)
    else CommandStep(cfg, c, e)
  }

  /** The pointer handlers on the canvas. */
  function PointerStep(cfg: Config, c: Controller, e: Event): (r: Controller)
    requires Inv(c) && (e.PointerDown? || e.PointerMove? || e.PointerUp?)
    ensures Inv(r) && r.width == c.width && r.height == c.height
  {
    match e
    case PointerDown(pos) => StartDrawing(cfg, c, pos)
    case PointerMove(pos) => Draw(cfg, c, pos)
    case PointerUp(pos) => StopDrawing(cfg, c, pos)
  }

  /** The text box's handlers; they do nothing once the box has closed. */
  function TextBoxStep(cfg: Config, c: Controller, e: Event): (r: Controller)
    requires Inv(c) && (e.TextChanged? || e.TextKey? || e.TextBlur?)
    ensures Inv(r) && r.width == c.width && r.height == c.height
  {
    match e
    case TextChanged(value) => if c.isTyping then c.(textInput := value) else c
    case TextKey(key) => if c.isTyping then TextKeyDown(cfg, c, key) else c
    case TextBlur => if c.isTyping then SubmitText(cfg, c) else c
  }

  /** The actions the toolbar and the grid flag reach. */
  function CommandStep(cfg: Config, c: Controller, e: Event): (r: Controller)
    requires Inv(c) && (e.ClearCanvas? || e.LoadImage? || e.UndoAction? || e.RedoAction? || e.GridChanged?)
    ensures Inv(r) && r.width == c.width && r.height == c.height
  {
    match e
    case ClearCanvas => Clear(c)
    case LoadImage(f) => Load(c, f)
    case UndoAction => UndoCanvas(c)
    case RedoAction => RedoCanvas(c)
    case GridChanged => ToggleGrid(cfg, c)
  }

  /** Events applied in order under one configuration. */
  function Run(cfg: Config, c: Controller, es: seq<Event>): (r: Controller)
    requires Inv(c)
    ensures Inv(r) && r.width == c.width && r.height == c.height
    decreases |es|
  {
    if es == [] then c else Run(cfg, Step(cfg, c, es[0]), es[1..])
  }

  /** The events that finish an operation: a gesture's release, a non-blank text submit, clear and load. */
  predicate Commits(c: Controller, e: Event) {
    match e
    case PointerUp(_) => c.isDrawing
    case TextKey(key) => c.isTyping && key == "Enter" && !Text.Blank(c.textInput)
    case TextBlur => c.isTyping && !Text.Blank(c.textInput)
    case ClearCanvas => true
    case LoadImage(_) => true
    case _ => false
  }

  /**
   * How every event drives the log: an event that finishes an operation
   * saves exactly one snapshot, the new raster, which is then current; undo
   * and redo only move the cursor; every other event leaves the log alone.
   */
  lemma HistoryCoupling(cfg: Config, c: Controller, e: Event)
    requires Inv(c)
    ensures Commits(c, e) ==>
      && Step(cfg, c, e).log == History.SaveState(c.log, Step(cfg, c, e).raster)
      && History.Current(Step(cfg, c, e).log) == Step(cfg, c, e).raster
    ensures (e.UndoAction? || e.RedoAction?) ==> Step(cfg, c, e).log.entries == c.log.entries
    ensures !Commits(c, e) && !e.UndoAction? && !e.RedoAction? ==> Step(cfg, c, e).log == c.log
  {
  }

  /** Concatenated event lists run one after the other. */
  lemma {:induction false} RunAppend(cfg: Config, c: Controller, a: seq<Event>, b: seq<Event>)
    requires Inv(c)
    ensures Run(cfg, c, a + b) == Run(cfg, Run(cfg, c, a), b)
    decreases |a|
  {
    if a == [] {
      assert a + b == b;
    } else {
      assert (a + b)[0] == a[0];
      assert (a + b)[1..] == a[1..] + b;
      RunAppend(cfg, Step(cfg, c, a[0]), a[1..], b);
    }
  }

  function Moves(ps: seq<Point>): (es: seq<Event>)
    ensures |es| == |ps| && forall i :: 0 <= i < |ps| ==> es[i] == PointerMove(ps[i])
  {
    seq(|ps|, i requires 0 <= i < |ps| => PointerMove(ps[i]))
  }

  /**
   * During a gesture, pointer moves extend the path by exactly the points
   * visited, save nothing, keep the start point, and with a shape tool leave
   * the committed raster untouched.
   */
  lemma {:induction false} MovesDuringGesture(cfg: Config, c: Controller, ps: seq<Point>)
    requires Inv(c) && c.isDrawing
    ensures var r := Run(cfg, c, Moves(ps));
      && r.isDrawing && r.currentPath == c.currentPath + ps
      && r.log == c.log && r.startPos == c.startPos
      && (!IsFreehand(cfg.tool) ==> r.raster == c.raster)
    decreases |ps|
  {
    if ps == [] {
      assert c.currentPath + ps == c.currentPath;
    } else {
      var c1 := Step(cfg, c, PointerMove(ps[0]));
      assert Moves(ps)[1..] == Moves(ps[1..]);
      assert Run(cfg, c, Moves(ps)) == Run(cfg, c1, Moves(ps[1..]));
      MovesDuringGesture(cfg, c1, ps[1..]);
      ConsAgain(c.currentPath, ps);
    }
  }

  /** Appending the head of `ps` and then its tail appends `ps`. */
  lemma ConsAgain<T>(x: seq<T>, ps: seq<T>)
    requires ps != []
    ensures x + [ps[0]] + ps[1..] == x + ps
  {
    assert ps == [ps[0]] + ps[1..];
  }

  /**
   * A whole gesture with a non-text tool (press, any number of moves
   * including none, release) saves exactly one snapshot, the final raster,
   * and ends idle with an empty path. With a shape tool the raster gains
   * exactly the one shape from the press point to the release point.
   */
  lemma GestureSavesOnce(cfg: Config, c: Controller, p: Point, ps: seq<Point>, q: Point)
    requires Inv(c) && cfg.tool != Text
    ensures var r := Run(cfg, c, [PointerDown(p)] + Moves(ps) + [PointerUp(q)]);
      && r.log == History.SaveState(c.log, r.raster)
      && History.Current(r.log) == r.raster
      && !r.isDrawing && r.currentPath == []
      && (IsShapeTool(cfg.tool) ==>
            r.raster == c.raster + [ShapeStroke(ShapeFor(cfg.tool, p, q), cfg.brushSize, cfg.color)])
  {
    var c1 := Step(cfg, c, PointerDown(p));
    MovesDuringGesture(cfg, c1, ps);
    GestureRun(cfg, c, p, ps, q);
  }

  /** A gesture's run is the press, then the moves, then the release, one after the other. */
  lemma GestureRun(cfg: Config, c: Controller, p: Point, ps: seq<Point>, q: Point)
    requires Inv(c)
    ensures var c1 := Step(cfg, c, PointerDown(p));
      Run(cfg, c, [PointerDown(p)] + Moves(ps) + [PointerUp(q)]) == Step(cfg, Run(cfg, c1, Moves(ps)), PointerUp(q))
  {
    var c1 := Step(cfg, c, PointerDown(p));
    assert Run(cfg, c, [PointerDown(p)]) == c1;
    var c2 := Run(cfg, c1, Moves(ps));
    assert Run(cfg, c2, [PointerUp(q)]) == Step(cfg, c2, PointerUp(q));
    RunAppend(cfg, c, [PointerDown(p)], Moves(ps));
    RunAppend(cfg, c, [PointerDown(p)] + Moves(ps), [PointerUp(q)]);
  }

  /**
   * Text entry from idle: press with the text tool, type `s`, press Enter.
   * A snapshot is saved, with the text drawn at the press point, exactly
   * when `s` has a non-blank character; Escape instead of Enter saves
   * nothing. Either way the box ends closed and empty.
   */
  lemma TextEntry(cfg: Config, c: Controller, p: Point, s: string, key: string)
    requires Inv(c) && cfg.tool == Text && (key == "Enter" || key == "Escape")
    ensures var r := Run(cfg, c, [PointerDown(p), TextChanged(s), TextKey(key)]);
      && !r.isTyping && r.textInput == ""
      && (key == "Enter" && !Text.Blank(s) ==>
            && r.raster == c.raster + [TextFill(s, p, 2 * cfg.brushSize, cfg.color)]
            && r.log == History.SaveState(c.log, r.raster))
      && (key == "Escape" || Text.Blank(s) ==> r.raster == c.raster && r.log == c.log)
  {
    var c1 := Step(cfg, c, PointerDown(p));
    var c2 := Step(cfg, c1, TextChanged(s));
    var c3 := Step(cfg, c2, TextKey(key));
    var es := [PointerDown(p), TextChanged(s), TextKey(key)];
    assert es[1..] == [TextChanged(s), TextKey(key)];
    assert es[1..][1..] == [TextKey(key)];
    assert Run(cfg, c2, [TextKey(key)]) == c3;
    assert Run(cfg, c1, es[1..]) == Run(cfg, c2, es[1..][1..]);
    assert Run(cfg, c, es) == Run(cfg, c1, es[1..]);
  }

  /**
   * Undo right after a committed operation shows the snapshot that was
   * current before it: for a gesture started from a saved picture, the
   * picture before the gesture. This holds even when the save evicted the
   * oldest entry.
   */
  lemma UndoAfterCommitRestores(cfg: Config, c: Controller, e: Event)
    requires Inv(c) && Commits(c, e) && c.log.entries != []
    ensures Step(cfg, Step(cfg, c, e), UndoAction).raster == History.Current(c.log)
  {
    HistoryCoupling(cfg, c, e);
    var c1 := Step(cfg, c, e);
    History.UndoAfterSave(c.log, c1.raster);
    assert Step(cfg, c1, UndoAction) == UndoCanvas(c1);
  }

  /** Toggling the grid as the source does loses the drawing while the log still holds it, so the screen and the log disagree. */
  lemma GridToggleWipesRaster(cfg: Config, c: Controller)
    requires Inv(c) && c.raster != []
    ensures GridChangedAsWritten(cfg, c).raster == []
    ensures GridChangedAsWritten(cfg, c).log == c.log
    ensures ToggleGrid(cfg, c).raster == c.raster
  {
  }

  /** The main 2D context's `globalCompositeOperation`. */
  datatype Composite = SourceOver | DestinationOut

  /**
   * The composite mode the main context is left in after an event, as the
   * source handles it: an eraser move sets destination-out; a brush move
   * and a shape release set source-over; re-assigning the canvas size on a
   * grid toggle resets the context to source-over; nothing else touches it.
   */
  function CompositeAfter(cfg: Config, c: Controller, e: Event, mode: Composite): (m: Composite)
    ensures e.PointerMove? && c.isDrawing && cfg.tool == Eraser ==> m == DestinationOut
    ensures e.PointerMove? && c.isDrawing && cfg.tool == Brush ==> m == SourceOver
    ensures e.PointerUp? && c.isDrawing && IsShapeTool(cfg.tool) ==> m == SourceOver
    ensures e.GridChanged? ==> m == SourceOver
    ensures (!(e.PointerMove? && c.isDrawing && IsFreehand(cfg.tool))
          && !(e.PointerUp? && c.isDrawing && IsShapeTool(cfg.tool))
          && !e.GridChanged?) ==> m == mode
    ensures m == DestinationOut ==> mode == DestinationOut || (e.PointerMove? && c.isDrawing && cfg.tool == Eraser)
  {
    match e
    case PointerMove(_) =>
      if c.isDrawing && cfg.tool == Brush then SourceOver
      else if c.isDrawing && cfg.tool == Eraser then DestinationOut
      else mode
    case PointerUp(_) => if c.isDrawing && IsShapeTool(cfg.tool) then SourceOver else mode
    case GridChanged => SourceOver
    case _ => mode
  }

  /**
   * An undo or redo restore as the source performs it: clear, then draw the
   * snapshot image. Under destination-out, drawing onto the cleared canvas
   * leaves it blank, so the snapshot is not shown.
   */
  function RestoreAsWritten(mode: Composite, c: Controller, got: History.Retrieved<Raster>): (r: Controller)
    requires Inv(c) && History.Valid(got.log) && got.log.maxHistory == c.log.maxHistory
    ensures Inv(r) && r.log == got.log
    ensures got.snapshot.Some? ==> (r.raster == got.snapshot.value <==> mode == SourceOver || got.snapshot.value == [])
    ensures got.snapshot.None? ==> r.raster == c.raster
  {
    match got.snapshot
    case Some(snap) => c.(raster := if mode == SourceOver then snap else [], log := got.log)
    case None => c.(log := got.log)
  }

  /**
   * Loading an image as the source performs it: clear, draw the image, save.
   * Under destination-out the drawn image vanishes and the blank canvas is
   * what gets saved.
   */
  function LoadAsWritten(mode: Composite, c: Controller, f: File): (r: Controller)
    requires Inv(c)
    ensures Inv(r) && r.log == History.SaveState(c.log, r.raster)
    ensures mode == DestinationOut ==> r.raster == []
    ensures mode == SourceOver ==> r == Load(c, f)
  {
    var raster := if mode == SourceOver then [ImageFill(f.bytes, c.width, c.height)] else [];
    c.(raster := raster, log := History.SaveState(c.log, raster))
  }

  /**
   * After an eraser stroke the context stays in destination-out, so the
   * as-written undo shows a blank canvas although the log's cursor names a
   * non-blank snapshot, and the as-written load saves a blank picture; the
   * corrected undo and load show the snapshot and the image.
   */
  lemma EraserLeavesRestoreBlank(cfg: Config, c: Controller, pos: Point, mode: Composite, f: File)
    requires Inv(c) && c.isDrawing && cfg.tool == Eraser
    requires History.CanUndo(c.log) && History.Undo(c.log).snapshot.value != []
    ensures var m := CompositeAfter(cfg, c, PointerMove(pos), mode);
      && m == DestinationOut
      && RestoreAsWritten(m, c, History.Undo(c.log)).raster == []
      && History.Current(RestoreAsWritten(m, c, History.Undo(c.log)).log) != []
      && UndoCanvas(c).raster == History.Current(UndoCanvas(c).log) != []
      && LoadAsWritten(m, c, f).raster == []
      && Load(c, f).raster != []
  {
  }

  /**
   * The finding's input end to end: an eraser move, the release that ends
   * the stroke (and saves it), then undo. The context is still in
   * destination-out, so the as-written undo shows a blank canvas, while the
   * corrected undo shows the snapshot from before the stroke.
   */
  lemma EraseReleaseUndoIsBlank(cfg: Config, c: Controller, pos: Point, q: Point, mode: Composite)
    requires Inv(c) && c.isDrawing && cfg.tool == Eraser && c.log.entries != []
    ensures var c1 := Step(cfg, c, PointerMove(pos));
      var m1 := CompositeAfter(cfg, c, PointerMove(pos), mode);
      var c2 := Step(cfg, c1, PointerUp(q));
      var m2 := CompositeAfter(cfg, c1, PointerUp(q), m1);
      && m2 == DestinationOut
      && History.CanUndo(c2.log)
      && RestoreAsWritten(m2, c2, History.Undo(c2.log)).raster == []
      && UndoCanvas(c2).raster == History.Current(c.log)
  {
    var c1 := Step(cfg, c, PointerMove(pos));
    var c2 := Step(cfg, c1, PointerUp(q));
    assert c1 == Draw(cfg, c, pos) && c1.isDrawing && c1.log == c.log;
    assert c2 == StopDrawing(cfg, c1, q);
    History.UndoAfterSave(c1.log, c2.raster);
  }
}

=== FILE: geometry.dfy ===
/**
 * Integer geometry of the canvas: event positions, the three shapes the
 * shape tools stroke, and the positions of the grid lines.
 */
module Geometry {

  datatype Point = Point(x: int, y: int)

  /**
   * A shape as the canvas strokes it: a segment between two points, a
   * rectangle given by one corner and SIGNED extents (the arguments of
   * strokeRect), or a circle given by its centre and squared radius.
   */
  datatype Shape =
    | Segment(from: Point, to: Point)
    | Rect(corner: Point, width: int, height: int)
    | Arc(center: Point, radiusSquared: int)

  function SquaredDistance(p: Point, q: Point): int {
    (q.x - p.x) * (q.x - p.x) + (q.y - p.y) * (q.y - p.y)
  }

  /** The corner of a rectangle diagonally opposite its given corner. */
  function OppositeCorner(r: Shape): Point
    requires r.Rect?
  {
    Point(r.corner.x + r.width, r.corner.y + r.height)
  }

  /** The rectangle dragged from `start` to `pos`: anchored at `start`, its opposite corner at `pos`, whatever the direction. */
  function RectBetween(start: Point, pos: Point): (r: Shape)
    ensures r.Rect? && r.corner == start && OppositeCorner(r) == pos
  {
    Rect(start, pos.x - start.x, pos.y - start.y)
  }

  /** The circle dragged from `start` to `pos`: centred at `start` and passing through `pos`. */
  function CircleThrough(start: Point, pos: Point): (r: Shape)
    ensures r.Arc? && r.center == start && r.radiusSquared >= 0
    ensures SquaredDistance(r.center, pos) == r.radiusSquared
    ensures r.radiusSquared == 0 <==> pos == start
  {
    Arc(start, SquaredDistance(start, pos))
  }

  function Abs(a: int): nat { if a < 0 then -a else a }

  /** `v` lies between `a` and `b`, in either order. */
  predicate Between(a: int, v: int, b: int) {
    (a <= v <= b) || (b <= v <= a)
  }

  /** The points a rectangle with signed extents covers. */
  predicate Covers(r: Shape, p: Point)
    requires r.Rect?
  {
    Between(r.corner.x, p.x, r.corner.x + r.width) && Between(r.corner.y, p.y, r.corner.y + r.height)
  }

  /** The same rectangle with its corner moved to the top left so that both extents are non-negative. */
  function Normalize(r: Shape): (n: Shape)
    requires r.Rect?
    ensures n.Rect? && n.width >= 0 && n.height >= 0
    ensures forall p :: Covers(n, p) <==> Covers(r, p)
  {
    Rect(Point(if r.width < 0 then r.corner.x + r.width else r.corner.x,
               if r.height < 0 then r.corner.y + r.height else r.corner.y),
         Abs(r.width), Abs(r.height))
  }

  /** A drag from (10,10) to (50,30) strokes 40 by 20; a drag back to (5,5) has extents -5 by -5 and covers (5,5)-(10,10). */
  lemma RectangleExamples()
    ensures RectBetween(Point(10, 10), Point(50, 30)) == Rect(Point(10, 10), 40, 20)
    ensures RectBetween(Point(10, 10), Point(5, 5)) == Rect(Point(10, 10), -5, -5)
    ensures Normalize(RectBetween(Point(10, 10), Point(5, 5))) == Rect(Point(5, 5), 5, 5)
  {
  }

  /** A drag from (0,0) to (3,4) gives radius 5. */
  lemma CircleExample()
    ensures CircleThrough(Point(0, 0), Point(3, 4)).radiusSquared == 5 * 5
  {
  }

  /** Grid cell size in pixels. */
  const GridSize: nat := 20

  /** The positions `drawGrid` puts lines at along an edge of length `limit`: 0, 20, 40, ... up to and including `limit`. */
  function GridLines(limit: nat): (r: seq<int>)
    ensures forall i, j :: 0 <= i < j < |r| ==> r[i] < r[j]
    ensures forall i :: 0 <= i < |r| ==> 0 <= r[i] <= limit && r[i] % GridSize == 0
    ensures |r| > 0 && r[|r| - 1] + GridSize > limit
  {
    seq(limit / GridSize + 1, i => GridSize * i)
  }

  /** Every multiple of 20 from 0 to `limit` inclusive gets a line, and nothing else does. */
  lemma GridLinesExact(limit: nat, v: int)
    ensures v in GridLines(limit) <==> 0 <= v <= limit && v % GridSize == 0
  {
    if 0 <= v <= limit && v % GridSize == 0 {
      var i := v / GridSize;
      assert GridLines(limit)[i] == v;
    }
  }

  /** The grid loop `for (x = 0; x <= limit; x += 20)`, collecting the positions it draws at. */
  method GridPositions(limit: nat) returns (xs: seq<int>)
    ensures xs == GridLines(limit)
    ensures forall v :: v in xs <==> 0 <= v <= limit && v % GridSize == 0
  {
    xs := [];
    var x := 0;
    while x <= limit
      invariant 0 <= x <= limit + GridSize
      invariant x == GridSize * |xs|
      invariant forall i :: 0 <= i < |xs| ==> xs[i] == GridSize * i
      decreases limit + GridSize - x
    {
      xs := xs + [x];
      x := x + GridSize;
    }
    assert |xs| == limit / GridSize + 1;
    assert xs == GridLines(limit);
    forall v
      ensures v in xs <==> 0 <= v <= limit && v % GridSize == 0
    {
      GridLinesExact(limit, v);
    }
  }
}

=== FILE: history.dfy ===
/**
 * The bounded undo/redo log of `useHistory`: a list of opaque snapshots,
 * oldest first, a cursor naming the current one, and a capacity.
 *
 * React keeps the list and the cursor in two state cells updated by nested
 * updaters; here each call is one atomic transition from a log to a log.
 */
module History {
  import opened Maybe

  /** The capacity `useHistory` uses when called without an argument. */
  const DefaultCapacity: nat := 20

  /** `entries` oldest first; `cursor` is the index of the current snapshot, -1 when there is none. */
  datatype Log<T> = Log(entries: seq<T>, cursor: int, maxHistory: nat)

  /** What undo and redo hand back: the snapshot they moved to (None for the source's `null`) and the log afterwards. */
  datatype Retrieved<T> = Retrieved(snapshot: Option<T>, log: Log<T>)

  /** The log invariant: the cursor is in range, it is -1 exactly when the log is empty, and the capacity is respected. */
  predicate Valid<T>(h: Log<T>) {
    && -1 <= h.cursor < |h.entries|
    && (h.cursor == -1 <==> h.entries == [])
    && |h.entries| <= h.maxHistory
  }

  function Min(a: int, b: int): int {
    if a <= b then a else b
  }

  /** The newest `n` elements of `s`, in order (all of `s` when it is shorter). */
  function Newest<T>(s: seq<T>, n: nat): (r: seq<T>)
    ensures |r| == Min(|s|, n)
  {
    s[|s| - Min(|s|, n)..]
  }

  /** `canUndo`: there is an older snapshot before the current one. */
  function CanUndo<T>(h: Log<T>): (b: bool)
    ensures Valid(h) ==> (b <==> 1 <= h.cursor < |h.entries| && |h.entries| >= 2)
  {
    h.cursor > 0
  }

  /** `canRedo`: there is a newer snapshot after the current one (an empty log has none). */
  function CanRedo<T>(h: Log<T>): (b: bool)
    ensures Valid(h) ==> (b <==> 0 <= h.cursor < |h.entries| - 1)
  {
    h.cursor < |h.entries| - 1
  }

  /** The snapshot the cursor names. */
  function Current<T>(h: Log<T>): T
    requires Valid(h) && h.entries != []
  {
    h.entries[h.cursor]
  }

  /** The state `useHistory` starts in. */
  function New<T>(maxHistory: nat): (h: Log<T>)
    ensures Valid(h) && h.maxHistory == maxHistory
    ensures h.entries == [] && !CanUndo(h) && !CanRedo(h)
  {
    Log([], -1, maxHistory)
  }

  /**
   * Records a snapshot: everything after the cursor (the redo branch) is
   * dropped, the snapshot is appended, and on overflow the oldest entry is
   * shifted out while the cursor keeps its numeric value.
   */
  function SaveState<T>(h: Log<T>, s: T): (r: Log<T>)
    requires Valid(h)
    ensures Valid(r) && r.maxHistory == h.maxHistory
    ensures r.entries == Newest(h.entries[..h.cursor + 1] + [s], h.maxHistory)
    ensures r.cursor == |r.entries| - 1 && !CanRedo(r)
    ensures h.maxHistory >= 1 ==> r.entries != [] && Current(r) == s
  {
    var kept := h.entries[..h.cursor + 1] + [s];
    if |kept| > h.maxHistory then
      Log(kept[1..], h.cursor, h.maxHistory)
    else
      Log(kept, |kept| - 1, h.maxHistory)
  }

  /** Steps the cursor back one entry and returns the snapshot there, or None with the log unchanged. */
  function Undo<T>(h: Log<T>): (r: Retrieved<T>)
    requires Valid(h)
    ensures Valid(r.log) && r.log.entries == h.entries && r.log.maxHistory == h.maxHistory
    ensures r.snapshot.Some? <==> CanUndo(h)
    ensures r.snapshot.Some? ==> r.log.cursor == h.cursor - 1 && r.snapshot.value == Current(r.log)
    ensures r.snapshot.None? ==> r.log == h
  {
    if h.cursor > 0 then
      Retrieved(Some(h.entries[h.cursor - 1]), h.(cursor := h.cursor - 1))
    else
      Retrieved(None, h)
  }

  /** Steps the cursor forward one entry and returns the snapshot there, or None with the log unchanged. */
  function Redo<T>(h: Log<T>): (r: Retrieved<T>)
    requires Valid(h)
    ensures Valid(r.log) && r.log.entries == h.entries && r.log.maxHistory == h.maxHistory
    ensures r.snapshot.Some? <==> CanRedo(h)
    ensures r.snapshot.Some? ==> r.log.cursor == h.cursor + 1 && r.snapshot.value == Current(r.log)
    ensures r.snapshot.None? ==> r.log == h
  {
    if h.cursor < |h.entries| - 1 then
      Retrieved(Some(h.entries[h.cursor + 1]), h.(cursor := h.cursor + 1))
    else
      Retrieved(None, h)
  }

  /** Forgets every snapshot. */
  function ClearHistory<T>(h: Log<T>): (r: Log<T>)
    ensures Valid(r) && r.maxHistory == h.maxHistory
    ensures r.entries == [] && r.cursor == -1
  {
    New(h.maxHistory)
  }

  /** A successful undo followed by redo is back where it started and hands back the snapshot that was current. */
  lemma UndoThenRedo<T>(h: Log<T>)
    requires Valid(h) && CanUndo(h)
    ensures Redo(Undo(h).log) == Retrieved(Some(Current(h)), h)
  {
    var u := Undo(h).log;
    assert u.cursor == h.cursor - 1;
    assert u.cursor < |u.entries| - 1;
  }

  /** A successful redo followed by undo is back where it started and hands back the snapshot that was current. */
  lemma RedoThenUndo<T>(h: Log<T>)
    requires Valid(h) && CanRedo(h)
    ensures Undo(Redo(h).log) == Retrieved(Some(Current(h)), h)
  {
    var u := Redo(h).log;
    assert u.cursor == h.cursor + 1;
    assert u.cursor > 0;
  }

  /** canUndo holds exactly when undo would hand back a snapshot; likewise canRedo and redo. */
  lemma PredicatesMatchOperations<T>(h: Log<T>)
    requires Valid(h)
    ensures CanUndo(h) <==> Undo(h).snapshot != None
    ensures CanRedo(h) <==> Redo(h).snapshot != None
  {
  }

  /** The first snapshot saved into an empty log cannot be undone: undo after it hands back nothing. */
  lemma FirstSaveCannotBeUndone<T>(maxHistory: nat, s: T)
    requires maxHistory >= 1
    ensures SaveState(New<T>(maxHistory), s).entries == [s]
    ensures Undo(SaveState(New<T>(maxHistory), s)) == Retrieved(None, SaveState(New<T>(maxHistory), s))
  {
    var h := SaveState(New<T>(maxHistory), s);
    assert h.entries == Newest([s], maxHistory);
  }

  /**
   * Saving after an undo overwrites the redo branch: the entry that was
   * current before the undo is gone, the new snapshot follows the one undo
   * returned to, and nothing is left to redo.
   */
  lemma SaveAfterUndoDropsRedoBranch<T>(h: Log<T>, s: T)
    requires Valid(h) && CanUndo(h)
    ensures var r := SaveState(Undo(h).log, s);
      && r.entries == h.entries[..h.cursor] + [s]
      && Redo(r).snapshot == None
  {
    var u := Undo(h).log;
    var kept := u.entries[..u.cursor + 1] + [s];
    assert |kept| == h.cursor + 1 <= h.maxHistory;
    assert u.entries[..u.cursor + 1] == h.entries[..h.cursor];
  }

  /**
   * Undo straight after a save goes back to the snapshot that was current
   * before it, whether or not the save dropped a redo branch or evicted the
   * oldest entry, as long as the log holds at least two snapshots.
   */
  lemma UndoAfterSave<T>(h: Log<T>, s: T)
    requires Valid(h) && h.entries != [] && h.maxHistory >= 2
    ensures CanUndo(SaveState(h, s))
    ensures Undo(SaveState(h, s)).snapshot == Some(Current(h))
  {
    var kept := h.entries[..h.cursor + 1] + [s];
    assert kept[h.cursor] == Current(h);
    if |kept| > h.maxHistory {
      assert kept[1..][h.cursor - 1] == Current(h);
    }
  }

  /** Saves `ss` one after another, first element first, with no undo in between. */
  function SaveAll<T>(h: Log<T>, ss: seq<T>): (r: Log<T>)
    requires Valid(h)
    ensures Valid(r) && r.maxHistory == h.maxHistory
    ensures ss != [] ==> r.cursor == |r.entries| - 1 && !CanRedo(r)
    ensures ss != [] && h.maxHistory >= 1 ==> r.entries != [] && Current(r) == ss[|ss| - 1]
    decreases |ss|
  {
    if ss == [] then h else SaveState(SaveAll(h, ss[..|ss| - 1]), ss[|ss| - 1])
  }

  /** Keeping the newest `m` of the newest `m` plus one more is keeping the newest `m` of all plus that one. */
  lemma NewestAppend<T>(x: seq<T>, s: T, m: nat)
    ensures Newest(Newest(x, m) + [s], m) == Newest(x + [s], m)
  {
    var b := x + [s];
    var d := |x| - Min(|x|, m);
    var a := Newest(x, m) + [s];
    assert a == b[d..];
    var k := Min(|b|, m);
    assert b[d..][|a| - k..] == b[d + |a| - k..];
  }

  /**
   * Saving a run of snapshots with the cursor at the newest entry keeps
   * exactly the newest `maxHistory` snapshots, in order, and leaves the
   * cursor on the last one saved.
   */
  lemma {:induction false} SaveAllKeepsNewest<T>(h: Log<T>, ss: seq<T>)
    requires Valid(h) && h.cursor == |h.entries| - 1
    ensures SaveAll(h, ss).entries == Newest(h.entries + ss, h.maxHistory)
    ensures SaveAll(h, ss).cursor == |SaveAll(h, ss).entries| - 1
    decreases |ss|
  {
    if ss == [] {
      assert h.entries + ss == h.entries;
      assert Newest(h.entries, h.maxHistory) == h.entries;
    } else {
      var init := ss[..|ss| - 1];
      var last := ss[|ss| - 1];
      SaveAllKeepsNewest(h, init);
      var p := SaveAll(h, init);
      assert SaveAll(h, ss) == SaveState(p, last);
      SavesExtend(h.entries, init, last, p, h.maxHistory);
      AppendLast(h.entries, ss);
    }
  }

  /** Splitting off the last element of `ss` and appending it again gives back `x + ss`. */
  lemma AppendLast<T>(x: seq<T>, ss: seq<T>)
    requires ss != []
    ensures (x + ss[..|ss| - 1]) + [ss[|ss| - 1]] == x + ss
  {
    assert ss == ss[..|ss| - 1] + [ss[|ss| - 1]];
  }

  /** One more save on top of a log holding the newest `m` of `x + init` holds the newest `m` of `x + init + [last]`. */
  lemma SavesExtend<T>(x: seq<T>, init: seq<T>, last: T, p: Log<T>, m: nat)
    requires Valid(p) && p.cursor == |p.entries| - 1 && p.maxHistory == m
    requires p.entries == Newest(x + init, m)
    ensures SaveState(p, last).entries == Newest((x + init) + [last], m)
  {
    SaveAtNewest(p, last);
    NewestAppend(x + init, last, m);
  }

  /** With the cursor at the newest entry, saving keeps the newest `maxHistory` of the log plus the new snapshot. */
  lemma SaveAtNewest<T>(h: Log<T>, s: T)
    requires Valid(h) && h.cursor == |h.entries| - 1
    ensures SaveState(h, s).entries == Newest(h.entries + [s], h.maxHistory)
  {
    assert h.entries[..h.cursor + 1] == h.entries;
  }

  /** After any number of saves from an empty log, it holds exactly the newest `maxHistory` of them, in order. */
  lemma SavesFromEmptyKeepNewest<T>(maxHistory: nat, ss: seq<T>)
    ensures SaveAll(New<T>(maxHistory), ss).entries == Newest(ss, maxHistory)
    ensures |SaveAll(New<T>(maxHistory), ss).entries| == Min(|ss|, maxHistory)
  {
    SaveAllKeepsNewest(New<T>(maxHistory), ss);
    assert New<T>(maxHistory).entries + ss == ss;
  }
}

=== FILE: layers.dfy ===
/**
 * Layer bookkeeping of the top bar: a list of named, visibility-flagged
 * entries and the id of the selected one. Layers are metadata only; the
 * canvas draws on one raster whatever the list says.
 */
module Layers {

  datatype Layer = Layer(id: int, name: string, visible: bool)

  /** The layer list together with the selected layer id (`currentLayer`). */
  datatype Selection = Selection(layers: seq<Layer>, current: int)

  /** The application's starting layers: one visible "Layer 1" with id 0, selected. */
  const Initial: Selection := Selection([Layer(0, "Layer 1", true)], 0)

  function Digit(d: nat): (c: char)
    requires d < 10
    ensures '0' <= c <= '9' && c as int - '0' as int == d
  {
    (48 + d) as char
  }

  predicate IsDigits(s: string) {
    forall i :: 0 <= i < |s| ==> '0' <= s[i] <= '9'
  }

  /** The decimal numeral of `n`, as a template literal renders a non-negative integer. */
  function Decimal(n: nat): (r: string)
    ensures |r| >= 1 && IsDigits(r)
    ensures r[0] == '0' <==> n == 0
    decreases n
  {
    if n < 10 then [Digit(n)] else Decimal(n / 10) + [Digit(n % 10)]
  }

  /** The number a string of decimal digits denotes. */
  function DecimalValue(s: string): nat
    requires IsDigits(s)
    decreases |s|
  {
    if s == [] then 0 else DecimalValue(s[..|s| - 1]) * 10 + (s[|s| - 1] as int - '0' as int)
  }

  /** Reading back the numeral of `n` gives `n`. */
  lemma {:induction false} DecimalRoundTrip(n: nat)
    ensures DecimalValue(Decimal(n)) == n
    decreases n
  {
    if n < 10 {
      assert Decimal(n)[..0] == [];
    } else {
      DecimalRoundTrip(n / 10);
      var d := Decimal(n / 10);
      assert (d + [Digit(n % 10)])[..|d|] == d;
    }
  }

  /** The name a new layer gets: "Layer " followed by its 1-based position. */
  function LayerName(n: nat): string {
    "Layer " + Decimal(n)
  }

  /** Two layer names are equal exactly when their numbers are. */
  lemma LayerNamesInjective(m: nat, n: nat)
    ensures LayerName(m) == LayerName(n) <==> m == n
  {
    if LayerName(m) == LayerName(n) {
      assert Decimal(m) == LayerName(m)[6..];
      assert Decimal(n) == LayerName(n)[6..];
      DecimalRoundTrip(m);
      DecimalRoundTrip(n);
    }
  }

  /** The initial layer carries the name a first added layer would get. */
  lemma InitialNameIsFirstName()
    ensures Initial.layers[0].name == LayerName(1)
  {
    assert Decimal(1) == "1";
  }

  predicate DistinctIds(ls: seq<Layer>) {
    forall i, j :: 0 <= i < j < |ls| ==> ls[i].id != ls[j].id
  }

  predicate HasId(ls: seq<Layer>, id: int) {
    exists i :: 0 <= i < |ls| && ls[i].id == id
  }

  /** How many layers carry `id`. */
  function Count(ls: seq<Layer>, id: int): nat
    decreases |ls|
  {
    if ls == [] then 0 else (if ls[0].id == id then 1 else 0) + Count(ls[1..], id)
  }

  /** With distinct ids, an id is carried by one layer if present and by none otherwise. */
  lemma {:induction false} CountDistinct(ls: seq<Layer>, id: int)
    requires DistinctIds(ls)
    ensures Count(ls, id) == if HasId(ls, id) then 1 else 0
    decreases |ls|
  {
    if ls != [] {
      CountDistinct(ls[1..], id);
      if ls[0].id == id {
        assert !HasId(ls[1..], id) by {
          forall i | 0 <= i < |ls[1..]| ensures ls[1..][i].id != id {
            assert ls[1..][i] == ls[i + 1];
          }
        }
      } else {
        assert HasId(ls, id) <==> HasId(ls[1..], id) by {
          if HasId(ls, id) {
            var i :| 0 <= i < |ls| && ls[i].id == id;
            assert ls[1..][i - 1] == ls[i];
          }
          if HasId(ls[1..], id) {
            var i :| 0 <= i < |ls[1..]| && ls[1..][i].id == id;
            assert ls[i + 1] == ls[1..][i];
          }
        }
      }
    }
  }

  /** `x` is the first layer of `ls` whose id is not `id`: every layer before it carries `id`. */
  predicate FirstWithout(ls: seq<Layer>, id: int, x: Layer) {
    exists k :: 0 <= k < |ls| && ls[k] == x && x.id != id && forall j :: 0 <= j < k ==> ls[j].id == id
  }

  /**
   * The filter `layers.filter(layer => layer.id !== id)`: keeps exactly the
   * layers whose id differs, each as often as it occurs, so it drops as
   * many as carry `id`; the first kept layer is the first of the input
   * whose id differs (the whole order is stated by `WithoutAppend`).
   */
  function Without(ls: seq<Layer>, id: int): (r: seq<Layer>)
    ensures forall l :: l in r <==> l in ls && l.id != id
    ensures forall l :: multiset(r)[l] == if l.id != id then multiset(ls)[l] else 0
    ensures |r| == |ls| - Count(ls, id)
    ensures r != [] ==> FirstWithout(ls, id, r[0])
    ensures DistinctIds(ls) ==> DistinctIds(r)
    decreases |ls|
  {
    if ls == [] then []
    else
      var rest := Without(ls[1..], id);
      var r := if ls[0].id == id then rest else [ls[0]] + rest;
      KeepStep(ls, id, rest, r);
      FirstWithoutSkipsHead(ls, id, rest);
      DistinctTail(ls);
      ConsDistinct(ls, rest);
      r
  }

  /** One step of the filter: what the tail keeps, with the head put back in front when its id differs, is what the whole list keeps. */
  lemma KeepStep(ls: seq<Layer>, id: int, rest: seq<Layer>, r: seq<Layer>)
    requires ls != [] && r == (if ls[0].id == id then rest else [ls[0]] + rest)
    requires forall l :: multiset(rest)[l] == if l.id != id then multiset(ls[1..])[l] else 0
    requires |rest| == |ls[1..]| - Count(ls[1..], id)
    ensures forall l :: multiset(r)[l] == if l.id != id then multiset(ls)[l] else 0
    ensures |r| == |ls| - Count(ls, id)
    ensures forall l :: l in r <==> l in ls && l.id != id
    ensures r != [] && ls[0].id != id ==> r[0] == ls[0] && FirstWithout(ls, id, r[0])
  {
    assert ls == [ls[0]] + ls[1..];
    assert multiset(ls) == multiset([ls[0]]) + multiset(ls[1..]);
    if ls[0].id != id {
      assert multiset(r) == multiset([ls[0]]) + multiset(rest);
    }
    forall l ensures l in r <==> l in ls && l.id != id {
      assert l in r <==> multiset(r)[l] > 0;
      assert l in ls <==> multiset(ls)[l] > 0;
    }
  }

  /** Dropping the head keeps ids distinct. */
  lemma DistinctTail(ls: seq<Layer>)
    requires ls != []
    ensures DistinctIds(ls) ==> DistinctIds(ls[1..])
  {
    if DistinctIds(ls) {
      forall i, j | 0 <= i < j < |ls[1..]| ensures ls[1..][i].id != ls[1..][j].id {
        assert ls[1..][i] == ls[i + 1] && ls[1..][j] == ls[j + 1];
      }
    }
  }

  /** When the head carries `id`, the first kept layer of the tail is the first kept layer of the whole list. */
  lemma FirstWithoutSkipsHead(ls: seq<Layer>, id: int, rest: seq<Layer>)
    requires ls != []
    requires rest != [] ==> FirstWithout(ls[1..], id, rest[0])
    ensures ls[0].id == id && rest != [] ==> FirstWithout(ls, id, rest[0])
  {
    if ls[0].id == id && rest != [] {
      var k :| 0 <= k < |ls[1..]| && ls[1..][k] == rest[0] && rest[0].id != id
        && forall j :: 0 <= j < k ==> ls[1..][j].id == id;
      assert ls[k + 1] == rest[0];
      forall j | 0 <= j < k + 1 ensures ls[j].id == id {
        if j > 0 {
          assert ls[j] == ls[1..][j - 1];
        }
      }
    }
  }

  /** One step of the filter on a non-empty list. */
  lemma WithoutCons(ls: seq<Layer>, id: int)
    requires ls != []
    ensures Without(ls, id) == if ls[0].id == id then Without(ls[1..], id) else [ls[0]] + Without(ls[1..], id)
  {
  }

  /** Filtering distributes over concatenation, so the filter keeps the input's order. */
  lemma {:induction false} WithoutAppend(a: seq<Layer>, b: seq<Layer>, id: int)
    ensures Without(a + b, id) == Without(a, id) + Without(b, id)
    decreases |a|
  {
    if a == [] {
      assert a + b == b;
    } else {
      var ab := a + b;
      assert ab[0] == a[0] && ab[1..] == a[1..] + b;
      WithoutCons(ab, id);
      WithoutCons(a, id);
      WithoutAppend(a[1..], b, id);
      var x := Without(a[1..], id);
      var y := Without(b, id);
      AppendAssoc([a[0]], x, y);
    }
  }

  /** Concatenation is associative. */
  lemma AppendAssoc<T>(p: seq<T>, q: seq<T>, r: seq<T>)
    ensures p + (q + r) == (p + q) + r
  {
  }

  /** The filter of one layer keeps it exactly when its id differs. */
  lemma WithoutSingle(x: Layer, id: int)
    ensures Without([x], id) == if x.id != id then [x] else []
  {
    assert [x][1..] == [];
  }

  /**
   * Putting the head of a list in front of layers taken from its tail:
   * with distinct ids on both sides, the result has distinct ids too.
   */
  lemma ConsDistinct(ls: seq<Layer>, rest: seq<Layer>)
    requires ls != []
    requires forall l :: l in rest ==> l in ls[1..]
    ensures DistinctIds(ls) && DistinctIds(rest) ==> DistinctIds([ls[0]] + rest)
  {
    if !(DistinctIds(ls) && DistinctIds(rest)) {
      return;
    }
    forall l | l in rest ensures l.id != ls[0].id {
      var k :| 0 <= k < |ls[1..]| && ls[1..][k] == l;
      assert ls[k + 1] == l;
    }
    var r := [ls[0]] + rest;
    forall i, j | 0 <= i < j < |r| ensures r[i].id != r[j].id {
      assert r[j] == rest[j - 1];
      if i > 0 {
        assert r[i] == rest[i - 1];
      }
    }
  }

  /**
   * The add button as written: appends a visible layer whose id is the
   * current length and whose name numbers it from 1, and selects it.
   */
  function AddLayer(ls: seq<Layer>): (r: Selection)
    ensures |r.layers| == |ls| + 1 && r.layers[..|ls|] == ls
    ensures r.layers[|ls|] == Layer(|ls|, LayerName(|ls| + 1), true)
    ensures r.current == r.layers[|ls|].id
  {
    var added := Layer(|ls|, LayerName(|ls| + 1), true);
    assert (ls + [added])[..|ls|] == ls;
    Selection(ls + [added], added.id)
  }

  /**
   * The remove button: with at most one layer nothing happens; otherwise
   * every layer carrying the selected id goes, the rest stay in order, and
   * the first remaining layer is selected (id 0 when none remains).
   */
  function RemoveLayer(s: Selection): (r: Selection)
    ensures |s.layers| <= 1 ==> r == s
    ensures |s.layers| > 1 ==>
      && r.layers == Without(s.layers, s.current)
      && (forall l :: l in r.layers <==> l in s.layers && l.id != s.current)
      && |r.layers| == |s.layers| - Count(s.layers, s.current)
      && (r.layers != [] ==> FirstWithout(s.layers, s.current, r.layers[0]) && r.current == r.layers[0].id)
      && (r.layers == [] ==> r.current == 0)
  {
    if |s.layers| > 1 then
      var rest := Without(s.layers, s.current);
      Selection(rest, if rest == [] then 0 else rest[0].id)
    else
      s
  }

  /** The visibility button: flips `visible` on the layers carrying `id` and on no other; ids and names stay. */
  function ToggleVisibility(ls: seq<Layer>, id: int): (r: seq<Layer>)
    ensures |r| == |ls|
    ensures forall i :: 0 <= i < |ls| ==>
      && r[i].id == ls[i].id && r[i].name == ls[i].name
      && (r[i].visible <==> (if ls[i].id == id then !ls[i].visible else ls[i].visible))
  {
    seq(|ls|, i requires 0 <= i < |ls| =>
      if ls[i].id == id then ls[i].(visible := !ls[i].visible) else ls[i])
  }

  /** Toggling the same id twice restores the list. */
  lemma ToggleTwiceIsIdentity(ls: seq<Layer>, id: int)
    ensures ToggleVisibility(ToggleVisibility(ls, id), id) == ls
  {
    var r := ToggleVisibility(ToggleVisibility(ls, id), id);
    assert forall i :: 0 <= i < |ls| ==> r[i] == ls[i];
  }

  /**
   * With distinct ids and more than one layer, remove drops the selected
   * layer alone (nothing when no layer carries the selected id), so at
   * least one layer remains, and the ids stay distinct.
   */
  lemma RemoveWithDistinctIds(s: Selection)
    ensures DistinctIds(s.layers) && |s.layers| > 1 ==>
      && |RemoveLayer(s).layers| == |s.layers| - (if HasId(s.layers, s.current) then 1 else 0)
      && |RemoveLayer(s).layers| >= 1
      && DistinctIds(RemoveLayer(s).layers)
  {
    if DistinctIds(s.layers) {
      CountDistinct(s.layers, s.current);
    }
  }

  /** One more than the largest id in the list (0 for an empty list): an id no layer carries. */
  function NextId(ls: seq<Layer>): (r: int)
    ensures forall i :: 0 <= i < |ls| ==> ls[i].id < r
    decreases |ls|
  {
    if ls == [] then 0
    else
      var rest := NextId(ls[1..]);
      assert forall i :: 1 <= i < |ls| ==> ls[i] == ls[1..][i - 1];
      if ls[0].id + 1 > rest then ls[0].id + 1 else rest
  }

  /**
   * Adding a layer with an id no existing layer carries: existing layers are
   * unchanged, the new one is visible, named by its position and selected,
   * and distinct ids stay distinct.
   */
  function AddFreshLayer(ls: seq<Layer>): (r: Selection)
    ensures |r.layers| == |ls| + 1 && r.layers[..|ls|] == ls
    ensures r.layers[|ls|].name == LayerName(|ls| + 1) && r.layers[|ls|].visible
    ensures !HasId(ls, r.layers[|ls|].id)
    ensures r.current == r.layers[|ls|].id
    ensures DistinctIds(ls) ==> DistinctIds(r.layers)
  {
    var added := Layer(NextId(ls), LayerName(|ls| + 1), true);
    assert (ls + [added])[..|ls|] == ls;
    Selection(ls + [added], added.id)
  }

  /**
   * The as-written add reuses an id after a removal, and remove then drops
   * both layers carrying it: from the initial list, add, select the first
   * layer, remove, add, remove leaves no layer at all.
   */
  lemma AsWrittenRemoveEmptiesList()
    ensures var s1 := AddLayer(Initial.layers);
      var s2 := RemoveLayer(s1.(current := 0));
      var s3 := AddLayer(s2.layers);
      var s4 := RemoveLayer(s3);
      && s3.layers == [Layer(1, "Layer 2", true), Layer(1, "Layer 2", true)]
      && !DistinctIds(s3.layers)
      && s4.layers == [] && s4.current == 0
  {
    assert Decimal(2) == "2";
    assert LayerName(2) == "Layer 2";
    var s1 := AddLayer(Initial.layers);
    assert s1.layers[1] == Layer(1, LayerName(2), true);
    assert s1.layers == [Layer(0, "Layer 1", true), Layer(1, "Layer 2", true)];
    var s2 := RemoveLayer(s1.(current := 0));
    assert s2.layers == [Layer(1, "Layer 2", true)] by {
      assert Without(s1.layers, 0) == [Layer(1, "Layer 2", true)] by {
        assert s1.layers[1..] == [Layer(1, "Layer 2", true)];
        assert s1.layers[1..][1..] == [];
      }
    }
    var s3 := AddLayer(s2.layers);
    assert s3.layers == [Layer(1, "Layer 2", true), Layer(1, "Layer 2", true)];
    assert Without(s3.layers, 1) == [] by {
      assert s3.layers[1..] == [Layer(1, "Layer 2", true)];
      assert s3.layers[1..][1..] == [];
    }
  }

  /** The same clicks with fresh ids leave one layer, the one added last. */
  lemma FreshIdsKeepALayer()
    ensures var s1 := AddFreshLayer(Initial.layers);
      var s2 := RemoveLayer(s1.(current := 0));
      var s3 := AddFreshLayer(s2.layers);
      var s4 := RemoveLayer(s3);
      |s4.layers| == 1
  {
    var s1 := AddFreshLayer(Initial.layers);
    assert DistinctIds(Initial.layers);
    var s2 := RemoveLayer(s1.(current := 0));
    RemoveWithDistinctIds(s1.(current := 0));
    assert HasId(s1.layers, 0) by { assert s1.layers[0].id == 0; }
    var s3 := AddFreshLayer(s2.layers);
    RemoveWithDistinctIds(s3);
    assert HasId(s3.layers, s3.current) by { assert s3.layers[|s2.layers|].id == s3.current; }
  }
}

=== FILE: maybe.dfy ===
/** A value that may be absent: stands for the source's `null` returns and for `files[0]` on an empty list. */
module Maybe {

  datatype Option<+T> = None | Some(value: T)
}

=== FILE: settings.dfy ===
/** The configuration the toolbar widgets hand to the canvas: tool, brush size, colour and grid flag. */
module Settings {

  /** The six tools of the tool palette. */
  datatype Tool = Brush | Eraser | Line | Rectangle | Circle | Text

  /** Brush size as the range slider allows it, 1 to 50 pixels. */
  type BrushSize = n: int | 1 <= n <= 50 witness 5

  /** A CSS colour string such as "#000000". */
  type Color = string

  datatype Config = Config(tool: Tool, brushSize: BrushSize, color: Color, showGrid: bool)

  /** What the application starts with: brush, size 5, black, grid hidden. */
  const InitialConfig: Config := Config(Brush, 5, "#000000", false)

  /** Tools that stroke directly onto the committed raster while the pointer moves. */
  predicate IsFreehand(t: Tool) {
    t == Brush || t == Eraser
  }

  /** Tools that preview a shape on the overlay and commit it on release. */
  predicate IsShapeTool(t: Tool) {
    t == Line || t == Rectangle || t == Circle
  }
}

=== FILE: text.dfy ===
/**
 * `String.prototype.trim` as the text tool uses it to decide whether there
 * is anything to draw: it strips ECMAScript WhiteSpace and LineTerminator
 * characters from both ends.
 */
module Text {

  /** ECMAScript WhiteSpace (TAB, VT, FF, ZWNBSP and the Space_Separator characters) and LineTerminator (LF, CR, LS, PS). */
  predicate IsTrimmed(c: char) {
    || c == '\t' || c == '\U{B}' || c == '\U{C}' || c == ' ' || c == '\U{A0}' || c == '\U{FEFF}'
    || c == '\U{1680}' || ('\U{2000}' <= c <= '\U{200A}') || c == '\U{202F}' || c == '\U{205F}' || c == '\U{3000}'
    || c == '\n' || c == '\r' || c == '\U{2028}' || c == '\U{2029}'
  }

  /** Every character of `s` is one that trim removes. */
  predicate Blank(s: string) {
    forall i :: 0 <= i < |s| ==> IsTrimmed(s[i])
  }

  /** Drops leading trimmable characters: the result is the suffix of `s` after a blank prefix, and does not itself start with one. */
  function TrimStart(s: string): (r: string)
    ensures |r| <= |s| && r == s[|s| - |r|..]
    ensures Blank(s[..|s| - |r|])
    ensures r == [] || !IsTrimmed(r[0])
  {
    if |s| > 0 && IsTrimmed(s[0]) then
      var r := TrimStart(s[1..]);
      assert s[1..][..|s| - 1 - |r|] == s[1..|s| - |r|];
      r
    else
      s
  }

  /** Drops trailing trimmable characters: the result is the prefix of `s` before a blank suffix, and does not itself end with one. */
  function TrimEnd(s: string): (r: string)
    ensures |r| <= |s| && r == s[..|r|]
    ensures Blank(s[|r|..])
    ensures r == [] || !IsTrimmed(r[|r| - 1])
  {
    if |s| > 0 && IsTrimmed(s[|s| - 1]) then
      var r := TrimEnd(s[..|s| - 1]);
      assert s[|r|..] == s[..|s| - 1][|r|..] + [s[|s| - 1]];
      r
    else
      s
  }

  /** `s.trim()`: empty exactly for blank text (what it keeps is stated by `TrimKeepsTheInfix`). */
  function Trim(s: string): (r: string)
    ensures |r| <= |s|
    ensures r == [] <==> Blank(s)
  {
    TrimEmptyIffBlank(s);
    TrimEnd(TrimStart(s))
  }

  /** `r` is the run of `s` starting at `k`, and what lies before and after it is blank. */
  predicate BlankAround(s: string, r: string, k: nat) {
    k + |r| <= |s| && r == s[k..k + |r|] && Blank(s[..k]) && Blank(s[k + |r|..])
  }

  /** What `s.trim()` keeps: the run of `s` left after a blank prefix and a blank suffix. */
  lemma TrimKeepsTheInfix(s: string)
    ensures exists k :: BlankAround(s, Trim(s), k)
  {
    var t := TrimStart(s);
    var r := TrimEnd(t);
    var k := |s| - |t|;
    assert BlankAround(s, r, k) by {
      SliceOfSuffix(s, k, |r|);
    }
    assert r == Trim(s);
  }

  /** The first `n` elements of the suffix from `k` are the slice from `k` to `k + n`, and the rest is the suffix from `k + n`. */
  lemma SliceOfSuffix<T>(s: seq<T>, k: nat, n: nat)
    requires k + n <= |s|
    ensures s[k..][..n] == s[k..k + n] && s[k..][n..] == s[k + n..]
  {
  }

  /** A non-empty `s.trim()` neither starts nor ends with a trimmable character. */
  lemma TrimmedEndsAreKept(s: string)
    ensures var r := Trim(s);
      r != [] ==> !IsTrimmed(r[0]) && !IsTrimmed(r[|r| - 1])
  {
    var t := TrimStart(s);
    var r := TrimEnd(t);
    assert r != [] ==> r[0] == t[0];
  }

  /** `text.trim()` is falsy exactly when the text consists of trimmable characters only. */
  lemma TrimEmptyIffBlank(s: string)
    ensures TrimEnd(TrimStart(s)) == [] <==> Blank(s)
  {
    var t := TrimStart(s);
    var k := |s| - |t|;
    if TrimEnd(t) == [] {
      assert t[0..] == t;
      assert t == [];
      assert s[..k] == s;
    }
    if t != [] {
      assert t[0] == s[k];
    }
  }
}

=== FILE: topbar.dfy ===
/** The top bar's keyboard shortcuts and its file-input filter. */
module TopBar {
  import opened Maybe
  import Canvas

  /** The parts of a keydown event the handler reads. `key` is compared literally, so "Z" is not "z". */
  datatype KeyEvent = KeyEvent(ctrlKey: bool, metaKey: bool, shiftKey: bool, key: string)

  /** What a shortcut asks for: undo, redo, save (export) or open (the file picker). */
  datatype Action = Undo | Redo | Save | Open

  /** The global keydown handler: which action, if any, a key press triggers. */
  function Shortcut(e: KeyEvent): (r: Option<Action>)
    ensures r == Some(Undo) <==> (e.ctrlKey || e.metaKey) && e.key == "z" && !e.shiftKey
    ensures r == Some(Redo) <==> (e.ctrlKey || e.metaKey) && ((e.key == "z" && e.shiftKey) || e.key == "y")
    ensures r == Some(Save) <==> (e.ctrlKey || e.metaKey) && e.key == "s"
    ensures r == Some(Open) <==> (e.ctrlKey || e.metaKey) && e.key == "o"
    ensures r == None <==> !(e.ctrlKey || e.metaKey) || (e.key != "z" && e.key != "y" && e.key != "s" && e.key != "o")
  {
    if !(e.ctrlKey || e.metaKey) then None
    else if e.key == "z" then (if e.shiftKey then Some(Redo) else Some(Undo))
    else if e.key == "y" then Some(Redo)
    else if e.key == "s" then Some(Save)
    else if e.key == "o" then Some(Open)
    else None
  }

  /** The chord the button tooltips advertise for each action (Ctrl+Z, Ctrl+Y, Ctrl+S, Ctrl+O). */
  function ChordFor(a: Action): KeyEvent {
    match a
    case Undo => KeyEvent(true, false, false, "z")
    case Redo => KeyEvent(true, false, false, "y")
    case Save => KeyEvent(true, false, false, "s")
    case Open => KeyEvent(true, false, false, "o")
  }

  /** Each advertised chord triggers its action, and with Meta instead of Ctrl too. */
  lemma ChordsTriggerTheirActions(a: Action)
    ensures Shortcut(ChordFor(a)) == Some(a)
    ensures Shortcut(ChordFor(a).(ctrlKey := false, metaKey := true)) == Some(a)
  {
  }

  /** Without Ctrl or Meta no key does anything, and an upper-case "Z" does not match "z". */
  lemma LiteralKeys(shift: bool, key: string)
    ensures Shortcut(KeyEvent(false, false, shift, key)) == None
    ensures Shortcut(KeyEvent(true, false, shift, "Z")) == None
  {
  }

  /** The MIME filter: the type starts with "image/", compared literally. */
  predicate IsImageType(mimeType: string) {
    "image/" <= mimeType
  }

  /** What the file input's change handler does: the file to hand to loadImage, if any, and the value the input is reset to. */
  datatype FileChange = FileChange(toLoad: Option<Canvas.File>, inputValue: string)

  /** Loads the first chosen file when it is an image; the input's value is cleared whatever was chosen. */
  function HandleFileChange(files: seq<Canvas.File>): (r: FileChange)
    ensures r.inputValue == ""
    ensures r.toLoad.Some? <==> |files| > 0 && |files[0].mimeType| >= 6 && files[0].mimeType[..6] == "image/"
    ensures r.toLoad.Some? ==> r.toLoad.value == files[0]
  {
    if |files| > 0 && IsImageType(files[0].mimeType) then FileChange(Some(files[0]), "")
    else FileChange(None, "")
  }

  /** Image types pass; other types, a capitalised prefix and a bare "image" do not. */
  lemma MimeExamples(name: string, bytes: seq<int>)
    ensures HandleFileChange([Canvas.File(name, "image/png", bytes)]).toLoad.Some?
    ensures HandleFileChange([Canvas.File(name, "image/svg+xml", bytes)]).toLoad.Some?
    ensures HandleFileChange([Canvas.File(name, "text/plain", bytes)]).toLoad.None?
    ensures HandleFileChange([Canvas.File(name, "Image/png", bytes)]).toLoad.None?
    ensures HandleFileChange([Canvas.File(name, "image", bytes)]).toLoad.None?
    ensures HandleFileChange([]).toLoad.None?
  {
    assert "image/png"[..6] == "image/";
    assert "image/svg+xml"[..6] == "image/";
    assert "text/plain"[0] != "image/"[0];
    assert "Image/png"[0] != "image/"[0];
  }
}
